=== FILE: README.md ===
# GameDB catalogue core, modelled in Dafny

GameDB is a Django application for a catalogue of video games. Users list,
rank, add, edit and delete games, comment on them, and export or import the
catalogue as JSON. This project models the rules behind those views with the
HTTP layer removed:

- the game and comment tables, and what happens to dependent rows when a
  game or a user is deleted (`models.dfy`, module `Models`);
- the cover-size validator and the rating cleaner of the game form
  (`models.dfy`, `forms.dfy`);
- the owner-or-staff permission test and the create, edit and delete views
  (`views.dfy`, module `Views`);
- the list ordering with its case-insensitive genre filter, the top-N view
  and the export projection (`views.dfy`);
- the JSON import, which upserts games by title. It is a class
  `JsonImport.Database` whose method `ImportJson` walks the entries in a
  loop (`import.dfy`). The loop is proved against the specification function
  `RunImport`. `import_proofs.dfy` then proves, about that function:
  - what a completed import leaves in the table;
  - that importing the same document twice gives the same table;
  - that keys other than the four read columns make no difference;
  - that importing an export gives the table back.

Supporting modules:

- `wrappers.dfy` holds `Option`, `Result` and `Outcome`.
- `json.dfy` models the decoded JSON values and the Python conversions the
  import applies to them: truthiness, `int(...)` and `str(...)`.
- `sequences.dfy` models the query operations: filtering, a sort and
  the first `k` rows in an order.

Points of the code's behaviour that the model keeps:

- **Non-object entries.** An entry that is not an object raises at
  `item.get` (games/views.py:168) in the middle of the loop. The exception
  ends the import, and upserts made for earlier entries stay in the table
  (`JsonImport.Step`, `JsonImport.AbortedStaysAborted`).
- **Unauthenticated users.** The create view redirects to the login page
  (`LoginRequired`). The edit and delete views answer 403, because the
  owner-or-staff mixin overrides the handler that the login mixin calls
  (games/views.py:64-66, `Views.Authorize`).
- **Export then import.** Importing an export gives the table back only
  under three conditions. Titles must be distinct, because a repeated title
  makes the lookup raise and ends the import. Titles must be non-empty,
  because an empty title is reported as missing. Ratings must be in 0-10,
  because the import clamps them. `ImportProofs.ExportThenImport` states the
  round trip under exactly these conditions.
- **Importing twice.** On the second import, entries without a title are
  still reported as errors. If the first import stopped at an entry, the
  second stops at the same entry (`ImportProofs.ImportIsIdempotent`).

## Model

| member | source | states |
|---|---|---|
| Json.Get | games/views.py:168-179 | `item.get(key)`: a missing key reads as `None`, exactly like an explicit `null`; a present key gives its value |
| Json.ParseInt | games/views.py:174-181 | `int()` on text succeeds exactly on digits with an optional `+` or `-` sign (so `"abc"`, `""` and a lone sign fail); digits read as the number they denote, and a `-` negates it |
| Json.Falsy | games/views.py:169-179 | Python truthiness: `None`, `False`, `0`, `""` and empty lists or objects are false, everything else true |
| Json.NatToDecimal | games/views.py:170 | Python's `str(n)`: non-empty, all digits, reads back as the number, with no leading zero, and exactly `0` for zero |
| Json.IntToDecimal | games/views.py:184-186 | `str(i)`: exactly `0` for zero; for `i > 0` digits denoting `i` with no leading zero; otherwise `-` followed by such digits denoting `-i` |
| Json.ParseIntToDecimal | games/views.py:174 | `int(str(i)) == i` for every integer |
| Json.StrOf | games/views.py:184-186 | the text a text column stores: a string as itself, an integer as its canonical decimal text (which parses back to it), `true`/`false` as `True`/`False`, `null` as `None` |
| Json.IntOrZero | games/views.py:173-181 | `int(v or 0)` with `TypeError`/`ValueError` as 0: falsy values give 0, `true` gives 1, an integer gives itself, a list or object gives 0, a string gives its parse or 0 |
| Json.IntOrZeroOfDecimal | games/views.py:173-176 | an integer sent as decimal text is read back as the same integer |
| Sequences.Filter | games/views.py:30-31 | the kept rows are exactly the rows satisfying the condition, each as often as in the input |
| Sequences.FilterKeepsDistinctKeys | games/models.py:33-34 | deleting rows never makes two remaining rows share a primary key |
| Sequences.Insert | games/views.py:28 | inserting into a sorted sequence keeps it sorted and adds exactly that row |
| Sequences.Sort | games/views.py:28 | the result is sorted by the key and is a permutation of the input |
| Sequences.SortedPrefixComesFirst | games/views.py:136 | the first `k` rows of a sorted sequence are sorted, are drawn from it, and rank no lower than any row after them |
| Sequences.FirstBy | games/views.py:136 | `min(k, n)` rows, sorted, drawn from the input, and each ranks no lower than every row left out |
| Models.ValidateImageSize | games/models.py:6-10 | passes exactly when the size is at most 2·1024·1024 = 2097152 bytes; otherwise the error names the size |
| Models.DeleteGame | games/models.py:33 | the games kept are exactly those with another id, and the comments kept are exactly those on other games (CASCADE), with their multiplicities; users and key counters unchanged |
| Models.DeleteGameKeepsStoreValid | games/models.py:33 | after deleting a game the store is consistent, no game has that id, and no comment refers to it |
| Models.DeleteUser | games/models.py:19-34 | the user goes; every game keeps its place and all fields except that an owner equal to the user becomes empty (SET_NULL); the comments kept are exactly those by other authors (CASCADE) |
| Models.DeleteUserKeepsStoreValid | games/models.py:19-34 | after deleting a user the store is consistent, and no game owner or comment author refers to that user |
| Models.NewComment | games/models.py:36-37 | a new comment is visible and stamped with the creation time |
| Models.InsertComment | games/models.py:32-37 | the new comment is appended with the next comment key; nothing else changes |
| Models.InsertCommentKeepsStoreValid | games/models.py:33-34 | a comment on an existing game by an existing user keeps the store consistent |
| Models.GameComments | games/models.py:39-40 | a game's comments are exactly its rows of the comment table, each as often, newest first |
| Models.NewestCommentListedFirst | games/models.py:36-40 | a comment newer than every other comment on its game is listed first |
| Forms.CleanUserRating | games/forms.py:16-22 | `None` becomes 0; a rating is accepted exactly when it is in 0-10 and is then kept unchanged (boundaries included); otherwise the error names the rating |
| Forms.CleanUserRatingIdempotent | games/forms.py:16-22 | cleaning an already cleaned rating returns it unchanged |
| Forms.CleanGameForm | games/forms.py:4-22 | a form is accepted exactly when the year is not negative, the rating cleans, and an uploaded cover is at most 2097152 bytes; the cleaned fields are the submitted ones with the cleaned rating |
| Views.TestFunc | games/views.py:55-62 | false for a missing game or a missing or anonymous user; otherwise true exactly when the user owns the game, is staff or is superuser |
| Views.FindGame | games/views.py:56 | finds a position holding the requested key, and finds none exactly when no game has it |
| Views.CreateGame | games/views.py:72-82 | an anonymous user is sent to log in, and an invalid form is refused with its error; otherwise exactly one game is appended with the next key and the acting user as owner |
| Views.Authorize | games/views.py:50-66 | the refusals of the edit and delete views, in order: not logged in gives 403, a missing game gives 404, failing the owner-or-staff test gives 403; success exactly when all three pass |
| Views.UpdateGame | games/views.py:85-90 | a refused request changes nothing; the edit succeeds exactly when the checks pass and the form is valid, and then overwrites title, year, genre, rating and cover of that game only, keeping its key and owner |
| Views.NewCover | games/forms.py:7 | the cover after saving: kept when no file is sent, removed when the clear box is ticked, the uploaded image otherwise |
| Views.DeleteGameView | games/views.py:93-97 | a refused request changes nothing; otherwise the result is the game deletion with its cascade |
| Views.StrangerIsRefused | games/views.py:55-66 | a logged-in user who is not owner, staff or superuser can neither edit nor delete the game |
| Views.OwnerOrStaffIsAllowed | games/views.py:55-62 | the owner, a staff member or a superuser passes the checks for an existing game |
| Views.CreateGameKeepsStoreValid | games/views.py:79-82 | creating a game keeps the store consistent |
| Views.UpdateGameKeepsStoreValid | games/views.py:85-90 | editing a game keeps the store consistent |
| Views.TopOrder | games/views.py:136 | a higher rating comes first; between equal ratings the later year comes first |
| Views.TopOrderIsTotalPreorder | games/views.py:136 | rating-then-year ordering is total and transitive |
| Views.TopCount | games/views.py:131-135 | 10 when `n` is missing or not an integer, otherwise `n` clamped into 1-100; always in 1-100 |
| Views.TopGames | games/views.py:130-137 | `min(count, #games)` games, by rating then year descending, each ranking no lower than every game left out |
| Views.StrLeTotal | games/views.py:28 | any two titles are ordered one way or the other |
| Views.StrLeTransitive | games/views.py:28 | the title order is transitive |
| Views.ListOrder | games/views.py:28 | a higher rating comes first, then the later year, then the title in ascending order |
| Views.ListOrderIsTotalPreorder | games/views.py:28 | rating desc, year desc, title asc is total and transitive |
| Views.EqualsIgnoreCase | games/views.py:31 | `iexact`: two strings match exactly when they are equal after case folding |
| Views.ListGames | games/views.py:27-32 | in list order; with a non-empty genre exactly the games whose genre matches it case-insensitively, otherwise all games, each as often as in the table |
| Views.ExportRecord | games/views.py:144 | exactly the keys title, release_year, genre, user_rating, owner_id, holding the game's values (owner_id `null` when there is no owner) |
| Views.ExportGames | games/views.py:143-149 | one record per game, in table order |
| JsonImport.GenreOf | games/views.py:177 | `genre or ''`: a falsy genre becomes empty; any other value is stored as its `str()` text, a string as itself |
| JsonImport.ClampRating | games/views.py:182 | `max(0, min(r, 10))`: in 0-10, unchanged inside it, and the nearest bound outside |
| JsonImport.ValuesOf | games/views.py:173-182 | the values an entry writes: the year is `int(v or 0)` with failures as 0 (an integer as itself, unparsable text or a list as 0); the genre is `genre or ''`; the rating is read the same way and clamped to the nearest value in 0-10; falsy year, genre or rating give 0, empty and 0 |
| JsonImport.CountTitle | games/views.py:184-187 | how many games the title lookup matches: at most the table size, and zero exactly when no game has the title |
| JsonImport.FindTitle | games/views.py:184-187 | when some game has the title, a position with exactly that title |
| JsonImport.MissingTitle | games/views.py:170 | the error for an untitled entry reads `Entry <idx>: missing title`, where `<idx>` is `str()` of the entry's position |
| JsonImport.Step | games/views.py:167-191 | one entry: a non-object stops the import; an untitled object appends `Entry <idx>: missing title` and changes nothing else; otherwise at most one game is inserted, with no owner or cover; existing games keep key, title, cover and owner; `created + updated + errors` grows by one |
| JsonImport.RunImport | games/views.py:164-191 | the walk: existing games keep key, title, cover and owner; inserted games get consecutive keys and no owner; a completed walk has `created` = games inserted and `created + updated + errors` = entries; ratings stay in range |
| JsonImport.StepUpdates | games/views.py:184-191 | an entry whose title one game has overwrites only that game's year, genre and rating, and counts one update |
| JsonImport.StepInserts | games/views.py:184-189 | an entry whose title no game has appends one game with the next key and no owner, and counts one creation |
| JsonImport.StepAborts | games/views.py:167-194 | a non-object entry, a title several games share, or a negative year stops the import with the table as it was |
| JsonImport.RunOneMore | games/views.py:167 | walking one more entry is one more step while the import runs |
| JsonImport.StopAt | games/views.py:193-194 | an exception at an entry ends the whole walk there |
| JsonImport.AbortedStaysAborted | games/views.py:193-194 | later entries are never processed after an exception |
| JsonImport.ImportDocument | games/views.py:156-194 | an undecodable file changes nothing and reports failure; a completed import reports counts summing to the entry count; existing games keep key, title, cover and owner |
| JsonImport.ImportKeepsStoreValid | games/views.py:184-187 | an import keeps the store consistent |
| JsonImport.Describe | games/views.py:193-194 | the exception text: the decoder's message; `'<type>' object has no attribute 'get'` for a non-object; `get() returned more than one Game -- it returned <n>!` with `<n>` the count's `str()` below 21 and `more than 20` from 21 on; the constraint message for a negative year |
| JsonImport.Message | games/views.py:192-194 | `Imported: <created> new, updated: <updated>. Errors: <errors>` with the counts in decimal after a completed import; `Error during import: ` and the exception text after a failure |
| JsonImport.ImportedMessageReadsBack | games/views.py:192 | the report of a completed import determines its three counts: equal reports mean equal `created`, `updated` and error counts |
| JsonImport.Database.ImportEntry | games/views.py:168-191 | the loop body changes the table exactly as one `Step` does and returns the new counters, or the reason it stopped |
| JsonImport.Database.ImportJson | games/views.py:156-195 | the table afterwards and the outcome are those of `ImportDocument` on the table before, and the store stays consistent |
| ImportProofs.CountTitleZero | games/views.py:184-187 | no game has a title exactly when its count is zero |
| ImportProofs.CountTitleOne | games/views.py:184-187 | a title counted once belongs to exactly one position |
| ImportProofs.CountTitleDistinct | games/views.py:184-187 | in a table with distinct titles every title is counted once |
| ImportProofs.CompletedWalk | games/views.py:167-191 | after an import that ran to the end, each game whose title an entry carries holds that title's last values; other games are untouched; inserted games have new titles; each entry title names one game; errors are exactly the missing-title ones by position |
| ImportProofs.WalkOnlyUpdates | games/views.py:184-191 | over a table where each entry title names one game, the import runs to the end and inserts nothing |
| ImportProofs.ReimportCompleted | games/views.py:184-191 | re-running a completed import gives the same table, creates nothing, updates every titled entry and reports the same errors |
| ImportProofs.ReimportStopped | games/views.py:193-194 | re-running an import that stopped stops again with the same table and reason |
| ImportProofs.ImportIsIdempotent | games/views.py:167-194 | importing the same entries twice leaves the table the first import left; the second creates nothing |
| ImportProofs.ImportDocumentIsIdempotent | games/views.py:156-195 | the same for a whole upload |
| ImportProofs.StepIgnoresKey | games/views.py:168-179 | removing a key other than the four read ones from an entry does not change its step |
| ImportProofs.ImportIgnoresKey | games/views.py:168-179 | an import ignores every key other than title, release_year, genre and user_rating, such as the exported owner_id |
| ImportProofs.ExportedItems | games/views.py:144 | the export read back holds one object per game: its exported record |
| ImportProofs.ExportedRecordReadsBack | games/views.py:168-182 | an exported record with a non-empty title and an in-range rating is read back as that game's title, year, genre and rating |
| ImportProofs.ExportedEntryStep | games/views.py:184-191 | the exported record of a game in a table with distinct non-empty titles and ratings in range updates that game to the values it already has |
| ImportProofs.ReimportExportPrefix | games/views.py:167-191 | importing the first `k` exported records leaves the table as it was, with `k` updates and no errors |
| ImportProofs.ExportThenImport | games/views.py:143-191 | importing the export of a table with distinct non-empty titles and ratings in 0-10 gives the same table: 0 created, every game updated, no errors |
| ImportProofs.TitleOnlyEntryCreatesDefaults | games/views.py:173-189 | an entry with only a new title creates one game with year 0, empty genre and rating 0 |
| ImportProofs.EmptyTitleEntryIsReported | games/views.py:168-171 | an entry with an empty title is reported as `Entry 0: missing title` and changes nothing |

## Left out

- HTTP and rendering are not modelled: templates, pagination of the list
  (20 per page), flash messages, the request-method and uploaded-file
  checks, and the export's `Content-Type` and `Content-Disposition`
  headers.
- Byte decoding and JSON text are not modelled. The model starts from the
  decoded document. A file the decoder refuses, or whose top-level value is
  a number, boolean or `null`, is `Malformed`; in the code those raise
  before or at the loop. A top-level object or string is iterated by Python
  as its keys or characters. It is given as `Items` of non-object entries.
  Export and import are related through the decoded records; that
  `json.dumps` followed by `json.loads` returns those records is assumed.
- Floating-point JSON numbers (`int(3.7)`) are not modelled.
- `Json.ParseInt` accepts only an optional sign followed by ASCII digits.
  Python's `int()` also strips surrounding whitespace and accepts
  underscores between digits and non-ASCII digits.
- `JsonImport.Describe` gives Python's texts for the non-object and
  several-games exceptions. The text for a negative year stands in for the
  database's own constraint message, which depends on the backend.
- Column limits that depend on the database backend are not modelled: title
  and genre lengths, and the upper bounds of the integer columns. A huge
  imported year would raise there; the model accepts it.
- Django form details are not modelled: required fields, `max_length`,
  whitespace stripping of text fields, and reporting all field errors at
  once. `Forms.CleanGameForm` reports the first failing check.
- `Forms.CleanGameForm` gives a negative rating the cleaner's own error.
  The form field's minimum of 0 rejects it first, with a different message.
- `Models.ValidateImageSize` and `Forms.CleanUserRating`: the errors carry
  the offending size or rating. The source's messages name only the limit
  (2 MB, and the range 0-10). Message texts are not modelled.
- `Views.StrLe` orders titles by code point, as SQLite's default `BINARY`
  collation does. Other database backends may sort `title` by a locale
  collation.
- `Lower` folds only ASCII letters. The database's case-insensitive match
  may fold more of Unicode.
- The order of rows that tie under `ORDER BY` is unspecified in the
  database. The model's sort picks one fixed order among tied rows; its contract
  states only that the result is sorted and a permutation.
- Sign-up, login and password hashing are not modelled. Users appear only
  as ids and the flags the permission test reads.
- Cover storage, upload paths, the admin and the URL routing are not
  modelled; a cover is its size.
- The distinct-genre list for the genre drop-down is not modelled; it is
  display only.
- No view for creating, editing or moderating comments exists in the
  source, so none is modelled. Comments are inserted and deleted only
  through `Models.InsertComment` and the deletion rules.
- Concurrent requests are not modelled; each operation runs alone on the
  store.

=== FILE: forms.dfy ===
/** The game form: its rating cleaner, and the checks a submitted form passes
    before a game row is written. */
module Forms {
  import opened Wrappers
  import opened Models

  /** The form's rating cleaner: an empty rating becomes 0; a rating outside
      0-10 is a field error; any other rating is kept as entered. */
  function CleanUserRating(rating: Option<int>): (r: Result<nat, ValidationError>)
    ensures rating.None? ==> r == Ok(0)
    ensures r.Ok? <==> rating.None? || 0 <= rating.value <= 10
    ensures r.Ok? ==> r.value <= 10
    ensures rating.Some? && r.Ok? ==> r.value == rating.value
    ensures r.Err? ==> r.error == RatingOutOfRange(rating.value)
  {
    match rating
    case None => Ok(0)
    case Some(x) => if x < 0 || x > 10 then Err(RatingOutOfRange(x)) else Ok(x)
  }

  /** Cleaning an already cleaned rating gives it back unchanged. */
  lemma CleanUserRatingIdempotent(rating: Option<int>)
    requires CleanUserRating(rating).Ok?
    ensures CleanUserRating(Some(CleanUserRating(rating).value)) == CleanUserRating(rating)
  {
  }

  /** What the cover widget submits: leave the current image, clear it, or upload a new one. */
  datatype CoverChange = KeepCover | ClearCover | Upload(image: Cover)

  /** The submitted form fields, before cleaning. */
  datatype GameFormInput = GameFormInput(
    title: string,
    releaseYear: int,
    genre: string,
    userRating: Option<int>,
    cover: CoverChange)

  /** The form fields once every check has passed. */
  datatype GameFields = GameFields(
    title: string,
    releaseYear: nat,
    genre: string,
    userRating: nat,
    cover: CoverChange)

  /** Form validation: the release year must not be negative (the column is a
      positive integer), the rating goes through the rating cleaner, and an
      uploaded cover goes through the cover validator. */
  function CleanGameForm(input: GameFormInput): (r: Result<GameFields, ValidationError>)
    ensures r.Ok? <==>
      && input.releaseYear >= 0
      && CleanUserRating(input.userRating).Ok?
      && (input.cover.Upload? ==> input.cover.image.size <= 2097152)
    ensures r.Ok? ==>
      && r.value.title == input.title && r.value.genre == input.genre
      && r.value.releaseYear == input.releaseYear && r.value.cover == input.cover
      && r.value.userRating == CleanUserRating(input.userRating).value
      && r.value.userRating <= 10
  {
    if input.releaseYear < 0 then Err(YearBelowZero(input.releaseYear))
    else
      match CleanUserRating(input.userRating)
      case Err(e) => Err(e)
      case Ok(rating) =>
        var coverCheck := if input.cover.Upload? then ValidateImageSize(input.cover.image) else Pass;
        match coverCheck
        case Fail(e) => Err(e)
        case Pass => Ok(GameFields(input.title, input.releaseYear, input.genre, rating, input.cover))
  }
}

=== FILE: import.dfy ===
/** The JSON import view: an upsert-by-title over the game table, walking the
    decoded entries in order, counting created and updated games and
    collecting per-entry errors; any exception ends the walk. */
module JsonImport {
  import opened Wrappers
  import opened Json
  import opened Sequences
  import opened Models

  /** The three columns an entry writes. */
  datatype Values = Values(year: int, genre: string, rating: int)

  /** An entry that has a title: an object whose `title` is truthy. */
  predicate Titled(item: Item) {
    item.Object? && !Falsy(Get(item.fields, "title"))
  }

  /** The title as the text column stores it. */
  function TitleOf(item: Item): string
    requires Titled(item)
  {
    StrOf(Get(item.fields, "title"))
  }

  /** `genre or ''`, as the text column stores it. */
  function GenreOf(v: JValue): (g: string)
    ensures Falsy(v) ==> g == ""
    ensures v.JStr? ==> g == v.s
    ensures !Falsy(v) ==> g == StrOf(v)
  {
    if Falsy(v) then "" else StrOf(v)
  }

  /** `max(0, min(r, 10))`: the nearest value in 0-10. */
  function ClampRating(r: int): (c: nat)
    ensures c <= 10
    ensures 0 <= r <= 10 ==> c == r
    ensures r < 0 ==> c == 0
    ensures r > 10 ==> c == 10
  {
    if r < 0 then 0 else if r > 10 then 10 else r
  }

  /** The year, genre and rating an object entry writes, with the defaults
      for missing or unusable values; the rating is always in 0-10. */
  function ValuesOf(item: Item): (v: Values)
    requires item.Object?
    ensures 0 <= v.rating <= 10
    ensures Falsy(Get(item.fields, "release_year")) ==> v.year == 0
    ensures Falsy(Get(item.fields, "genre")) ==> v.genre == ""
    ensures Falsy(Get(item.fields, "user_rating")) ==> v.rating == 0
    ensures v.year == IntOrZero(Get(item.fields, "release_year"))
    ensures v.genre == GenreOf(Get(item.fields, "genre"))
    ensures v.rating == ClampRating(IntOrZero(Get(item.fields, "user_rating")))
  {
    Values(IntOrZero(Get(item.fields, "release_year")),
           GenreOf(Get(item.fields, "genre")),
           ClampRating(IntOrZero(Get(item.fields, "user_rating"))))
  }

  function GameValues(g: Game): Values {
    Values(g.releaseYear, g.genre, g.userRating)
  }

  /** How many games carry exactly this title. */
  function CountTitle(games: seq<Game>, title: string): (c: nat)
    ensures c <= |games|
    ensures c == 0 <==> forall j :: 0 <= j < |games| ==> games[j].title != title
    decreases |games|
  {
    if games == [] then 0
    else CountTitle(games[..|games| - 1], title) + (if games[|games| - 1].title == title then 1 else 0)
  }

  /** The position of a game with this title. */
  function FindTitle(games: seq<Game>, title: string): (i: nat)
    requires CountTitle(games, title) > 0
    ensures i < |games| && games[i].title == title
    decreases |games|
  {
    if games[|games| - 1].title == title then |games| - 1
    else FindTitle(games[..|games| - 1], title)
  }

  /** Why an import stopped: an exception raised while walking the entries. */
  datatype AbortReason =
    | MalformedJson(detail: string)              // the decoder refused the file
    | NotAnObject(index: nat, value: JValue)     // `item.get` on a non-object
    | MultipleGames(title: string, count: nat)   // the title lookup found several games
    | NegativeYear(title: string, year: int)     // the year column refuses a negative value

  /** The import's state between two entries. */
  datatype ImportState =
    | Running(games: seq<Game>, nextId: GameId, created: nat, updated: nat, errors: seq<string>)
    | Aborted(games: seq<Game>, nextId: GameId, reason: AbortReason)

  /** The error recorded for an entry without a title. */
  function MissingTitle(index: nat): (m: string)
    ensures |m| > 21 && m[..6] == "Entry " && m[|m| - 15..] == ": missing title"
    ensures ParseInt(m[6..|m| - 15]) == Some(index)
    ensures AllDigits(m[6..|m| - 15]) && (m[6] == '0' ==> index == 0)
    ensures m[6..|m| - 15] == NatToDecimal(index)
  {
    var digits := NatToDecimal(index);
    var m := "Entry " + digits + ": missing title";
    assert m[6..|m| - 15] == digits;
    m
  }

  /** Key, title, cover and owner: the columns the import never writes to an existing game. */
  predicate SameIdentity(a: Game, b: Game) {
    a.id == b.id && a.title == b.title && a.cover == b.cover && a.owner == b.owner
  }

  /** A game the import inserted: the next key, no cover, no owner. */
  predicate InsertedRow(g: Game, id: GameId) {
    g.id == id && g.cover.None? && g.owner.None?
  }

  /** One entry of the walk, at position `index`. */
  function Step(st: ImportState, index: nat, item: Item): (r: ImportState)
    requires st.Running?
    ensures |st.games| <= |r.games| <= |st.games| + 1
    ensures forall j :: 0 <= j < |st.games| ==> SameIdentity(r.games[j], st.games[j])
    ensures forall j :: |st.games| <= j < |r.games| ==> InsertedRow(r.games[j], st.nextId)
    ensures r.nextId == st.nextId + (|r.games| - |st.games|)
    ensures item.NotObject? ==> r.Aborted?
    ensures item.Object? && !Titled(item) ==> r == st.(errors := st.errors + [MissingTitle(index)])
    ensures r.Aborted? ==> r.games == st.games
    ensures r.Running? ==>
      && r.created == st.created + (|r.games| - |st.games|)
      && r.created + r.updated + |r.errors| == st.created + st.updated + |st.errors| + 1
    ensures RatingsInRange(st.games) ==> RatingsInRange(r.games)
  {
    match item
    case NotObject(v) => Aborted(st.games, st.nextId, NotAnObject(index, v))
    case Object(fields) =>
      if !Titled(item) then st.(errors := st.errors + [MissingTitle(index)])
      else
        var title := TitleOf(item);
        var v := ValuesOf(item);
        var matches := CountTitle(st.games, title);
        if matches > 1 then Aborted(st.games, st.nextId, MultipleGames(title, matches))
        else if v.year < 0 then Aborted(st.games, st.nextId, NegativeYear(title, v.year))
        else if matches == 1 then
          var i := FindTitle(st.games, title);
          st.(games := st.games[i := st.games[i].(releaseYear := v.year, genre := v.genre, userRating := v.rating)],
              updated := st.updated + 1)
        else
          st.(games := st.games + [Game(st.nextId, title, v.year, v.genre, v.rating, None, None)],
              nextId := st.nextId + 1,
              created := st.created + 1)
  }

  /** The walk over `items` from a table, entry by entry; the first exception
      ends it, and what was written before stays written. */
  function RunImport(games: seq<Game>, nextId: GameId, items: seq<Item>): (r: ImportState)
    ensures |games| <= |r.games|
    ensures forall j :: 0 <= j < |games| ==> SameIdentity(r.games[j], games[j])
    ensures forall j :: |games| <= j < |r.games| ==> InsertedRow(r.games[j], nextId + (j - |games|))
    ensures r.nextId == nextId + (|r.games| - |games|)
    ensures r.Running? ==> r.created == |r.games| - |games| && r.created + r.updated + |r.errors| == |items|
    ensures RatingsInRange(games) ==> RatingsInRange(r.games)
    decreases |items|
  {
    if items == [] then Running(games, nextId, 0, 0, [])
    else
      var before := RunImport(games, nextId, items[..|items| - 1]);
      if before.Aborted? then before else Step(before, |items| - 1, items[|items| - 1])
  }

  /** What the view reports. */
  datatype ImportOutcome =
    | Imported(created: nat, updated: nat, errors: seq<string>)
    | Failed(reason: AbortReason)

  /** The table after an import, and the report. */
  datatype ImportResult = ImportResult(games: seq<Game>, nextId: GameId, outcome: ImportOutcome)

  /** A whole upload: an undecodable file changes nothing; otherwise the walk. */
  function ImportDocument(games: seq<Game>, nextId: GameId, doc: Document): (r: ImportResult)
    ensures doc.Malformed? ==> r == ImportResult(games, nextId, Failed(MalformedJson(doc.detail)))
    ensures doc.Items? && r.outcome.Imported? ==>
      r.outcome.created + r.outcome.updated + |r.outcome.errors| == |doc.items|
    ensures |games| <= |r.games|
    ensures forall j :: 0 <= j < |games| ==> SameIdentity(r.games[j], games[j])
  {
    match doc
    case Malformed(detail) => ImportResult(games, nextId, Failed(MalformedJson(detail)))
    case Items(items) =>
      match RunImport(games, nextId, items)
      case Running(g, n, created, updated, errors) => ImportResult(g, n, Imported(created, updated, errors))
      case Aborted(g, n, reason) => ImportResult(g, n, Failed(reason))
  }

  /** Python's name for the type of a value that is not an object. */
  function TypeName(v: JValue): string {
    match v
    case JNull => "NoneType"
    case JBool(_) => "bool"
    case JInt(_) => "int"
    case JStr(_) => "str"
    case JCompound(_, _) => "list"
  }

  function Describe(reason: AbortReason): (m: string)
    ensures reason.MalformedJson? ==> m == reason.detail
    ensures reason.NotAnObject? ==>
      |m| > 31 && m[0] == '\'' && m[1..|m| - 31] == TypeName(reason.value) && m[|m| - 31..] == "' object has no attribute 'get'"
    ensures reason.MultipleGames? ==>
      && |m| > 50 && m[..49] == "get() returned more than one Game -- it returned " && m[|m| - 1] == '!'
      && (reason.count < 21 ==> m[49..|m| - 1] == NatToDecimal(reason.count))
      && (reason.count >= 21 ==> m[49..|m| - 1] == "more than 20")
    ensures reason.NegativeYear? ==> m == "CHECK constraint failed: release_year"
  {
    match reason
    case MalformedJson(detail) => detail
    case NotAnObject(_, v) => "'" + TypeName(v) + "' object has no attribute 'get'"
    case MultipleGames(_, count) =>
      var shown := if count < 21 then NatToDecimal(count) else "more than 20";
      var m := "get() returned more than one Game -- it returned " + shown + "!";
      assert m[49..|m| - 1] == shown;
      m
    case NegativeYear(_, _) => "CHECK constraint failed: release_year"
  }

  /** The message the view shows after an upload. */
  function Message(outcome: ImportOutcome): (m: string)
    ensures outcome.Imported? ==>
      m == "Imported: " + (NatToDecimal(outcome.created) + (" new, updated: " + (NatToDecimal(outcome.updated)
           + (". Errors: " + NatToDecimal(|outcome.errors|)))))
    ensures outcome.Failed? ==> m == "Error during import: " + Describe(outcome.reason)
  {
    match outcome
    case Imported(created, updated, errors) =>
      "Imported: " + (NatToDecimal(created) + (" new, updated: " + (NatToDecimal(updated)
      + (". Errors: " + NatToDecimal(|errors|)))))
    case Failed(reason) => "Error during import: " + Describe(reason)
  }

  /** How many digits a string starts with. */
  function LeadingDigits(s: string): (n: nat)
    ensures n <= |s|
  {
    if s == [] || !IsDigit(s[0]) then 0 else 1 + LeadingDigits(s[1..])
  }

  lemma {:induction false} LeadingDigitsOf(x: string, y: string)
    requires AllDigits(x) && y != [] && !IsDigit(y[0])
    ensures LeadingDigits(x + y) == |x|
  {
    if x != [] {
      assert (x + y)[1..] == x[1..] + y;
      LeadingDigitsOf(x[1..], y);
    }
  }

  /** A run of digits followed by a non-digit splits a string in one way only. */
  lemma DigitRunUnique(x: string, y: string, x2: string, y2: string)
    requires AllDigits(x) && AllDigits(x2)
    requires y != [] && !IsDigit(y[0]) && y2 != [] && !IsDigit(y2[0])
    requires x + y == x2 + y2
    ensures x == x2 && y == y2
  {
    LeadingDigitsOf(x, y);
    LeadingDigitsOf(x2, y2);
    assert x == (x + y)[..|x|];
    assert x2 == (x2 + y2)[..|x2|];
    assert y == (x + y)[|x|..];
    assert y2 == (x2 + y2)[|x2|..];
  }

  /** Equal strings with the same prefix have the same rest. */
  lemma SamePrefixSameRest(p: string, s: string, t: string)
    requires p + s == p + t
    ensures s == t
  {
    assert s == (p + s)[|p|..];
    assert t == (p + t)[|p|..];
  }

  /** The decimal text of a number determines the number. */
  lemma NatToDecimalInjective(a: nat, b: nat)
    requires NatToDecimal(a) == NatToDecimal(b)
    ensures a == b
  {
  }

  /** The report of a completed import gives back its three counts: two
      completed imports with the same report created, updated and rejected
      the same number of entries. */
  lemma {:induction false} ImportedMessageReadsBack(o1: ImportOutcome, o2: ImportOutcome)
    requires o1.Imported? && o2.Imported? && Message(o1) == Message(o2)
    ensures o1.created == o2.created && o1.updated == o2.updated && |o1.errors| == |o2.errors|
  {
    var c1, u1, e1 := NatToDecimal(o1.created), NatToDecimal(o1.updated), NatToDecimal(|o1.errors|);
    var c2, u2, e2 := NatToDecimal(o2.created), NatToDecimal(o2.updated), NatToDecimal(|o2.errors|);
    var rest1, rest2 := ". Errors: " + e1, ". Errors: " + e2;
    var tail1, tail2 := " new, updated: " + (u1 + rest1), " new, updated: " + (u2 + rest2);
    SamePrefixSameRest("Imported: ", c1 + tail1, c2 + tail2);
    DigitRunUnique(c1, tail1, c2, tail2);
    NatToDecimalInjective(o1.created, o2.created);
    SamePrefixSameRest(" new, updated: ", u1 + rest1, u2 + rest2);
    DigitRunUnique(u1, rest1, u2, rest2);
    NatToDecimalInjective(o1.updated, o2.updated);
    SamePrefixSameRest(". Errors: ", e1, e2);
    NatToDecimalInjective(|o1.errors|, |o2.errors|);
  }

  /** An entry whose title matches exactly one game overwrites that game's year, genre and rating. */
  lemma StepUpdates(st: ImportState, index: nat, item: Item)
    requires st.Running? && Titled(item)
    requires CountTitle(st.games, TitleOf(item)) == 1 && ValuesOf(item).year >= 0
    ensures var i := FindTitle(st.games, TitleOf(item));
            var v := ValuesOf(item);
            Step(st, index, item) == st.(games := st.games[i := st.games[i].(releaseYear := v.year, genre := v.genre, userRating := v.rating)],
                                         updated := st.updated + 1)
  {
  }

  /** An entry whose title matches no game inserts one, with no owner and no cover. */
  lemma StepInserts(st: ImportState, index: nat, item: Item)
    requires st.Running? && Titled(item)
    requires CountTitle(st.games, TitleOf(item)) == 0 && ValuesOf(item).year >= 0
    ensures var v := ValuesOf(item);
            Step(st, index, item) == st.(games := st.games + [Game(st.nextId, TitleOf(item), v.year, v.genre, v.rating, None, None)],
                                         nextId := st.nextId + 1, created := st.created + 1)
  {
  }

  /** An entry that raises ends the walk with the table as it was. */
  lemma StepAborts(st: ImportState, index: nat, item: Item)
    requires st.Running?
    requires item.NotObject? || (Titled(item) && (CountTitle(st.games, TitleOf(item)) > 1 || ValuesOf(item).year < 0))
    ensures Step(st, index, item) == Aborted(st.games, st.nextId,
      if item.NotObject? then NotAnObject(index, item.value)
      else if CountTitle(st.games, TitleOf(item)) > 1 then MultipleGames(TitleOf(item), CountTitle(st.games, TitleOf(item)))
      else NegativeYear(TitleOf(item), ValuesOf(item).year))
  {
  }

  /** The walk over one more entry is one more step, unless it had already stopped. */
  lemma RunOneMore(games: seq<Game>, nextId: GameId, items: seq<Item>, i: nat)
    requires i < |items| && RunImport(games, nextId, items[..i]).Running?
    ensures RunImport(games, nextId, items[..i + 1]) == Step(RunImport(games, nextId, items[..i]), i, items[i])
  {
    assert items[..i + 1][..i] == items[..i];
  }

  /** Stopping at entry `i` is the outcome of the whole walk. */
  lemma StopAt(games: seq<Game>, nextId: GameId, items: seq<Item>, i: nat)
    requires i < |items| && RunImport(games, nextId, items[..i]).Running?
    requires Step(RunImport(games, nextId, items[..i]), i, items[i]).Aborted?
    ensures RunImport(games, nextId, items) == Step(RunImport(games, nextId, items[..i]), i, items[i])
  {
    RunOneMore(games, nextId, items, i);
    AbortedStaysAborted(games, nextId, items, i + 1);
  }

  /** Once the walk has stopped, later entries change nothing. */
  lemma {:induction false} AbortedStaysAborted(games: seq<Game>, nextId: GameId, items: seq<Item>, k: nat)
    requires k <= |items| && RunImport(games, nextId, items[..k]).Aborted?
    ensures RunImport(games, nextId, items) == RunImport(games, nextId, items[..k])
    decreases |items|
  {
    if k < |items| {
      var prefix := items[..|items| - 1];
      assert prefix[..k] == items[..k];
      AbortedStaysAborted(games, nextId, prefix, k);
    } else {
      assert items[..k] == items;
    }
  }

  /** An import keeps the store consistent: existing games keep their keys and
      owners, and inserted games get fresh keys and no owner. */
  lemma ImportKeepsStoreValid(s: Store, doc: Document)
    requires StoreValid(s)
    ensures var r := ImportDocument(s.games, s.nextGameId, doc);
            StoreValid(s.(games := r.games, nextGameId := r.nextId))
  {
    var r := ImportDocument(s.games, s.nextGameId, doc);
    var t := s.(games := r.games, nextGameId := r.nextId);
    if doc.Items? {
      var st := RunImport(s.games, s.nextGameId, doc.items);
      assert r.games == st.games && r.nextId == st.nextId;
      assert DistinctKeys(t.games, GameKey) by {
        forall i, j | 0 <= i < |t.games| && 0 <= j < |t.games| && i != j
          ensures GameKey(t.games[i]) != GameKey(t.games[j])
        {
          if i < |s.games| && j < |s.games| {
            assert GameKey(s.games[i]) != GameKey(s.games[j]);
          }
        }
      }
      forall i | 0 <= i < |t.comments| ensures HasGame(t.games, t.comments[i].game) {
        assert t.comments[i] == s.comments[i] && HasGame(s.games, s.comments[i].game);
        var j :| 0 <= j < |s.games| && s.games[j].id == t.comments[i].game;
        assert t.games[j].id == s.games[j].id;
      }
    }
  }

  /** The database the import view writes to. */
  class Database {
    var store: Store

    ghost predicate Valid()
      reads this
    {
      StoreValid(store)
    }

    constructor (initial: Store)
      requires StoreValid(initial)
      ensures Valid() && store == initial
    {
      store := initial;
    }

    /** One pass of the loop body for the entry at position `index`: either
        the state after it, or the exception it raised. */
    method ImportEntry(index: nat, item: Item, created: nat, updated: nat, errors: seq<string>)
      returns (created': nat, updated': nat, errors': seq<string>, abort: Option<AbortReason>)
      modifies this
      ensures var after := Step(Running(old(store.games), old(store.nextGameId), created, updated, errors), index, item);
              && store == old(store).(games := after.games, nextGameId := after.nextId)
              && (after.Aborted? <==> abort.Some?)
              && (after.Aborted? ==> abort.value == after.reason)
              && (after.Running? ==> created' == after.created && updated' == after.updated && errors' == after.errors)
    {
      ghost var before := Running(store.games, store.nextGameId, created, updated, errors);
      created', updated', errors', abort := created, updated, errors, None;
      if item.NotObject? {
        StepAborts(before, index, item);
        return created', updated', errors', Some(NotAnObject(index, item.value));
      }
      var title := Get(item.fields, "title");
      if Falsy(title) {
        errors' := errors + [MissingTitle(index)];
        return;
      }
      var name := StrOf(title);
      var year := IntOrZero(Get(item.fields, "release_year"));
      var genre := GenreOf(Get(item.fields, "genre"));
      var rating := IntOrZero(Get(item.fields, "user_rating"));
      rating := ClampRating(rating);
      assert name == TitleOf(item) && Values(year, genre, rating) == ValuesOf(item);
      var matches := CountTitle(store.games, name);
      if matches > 1 {
        StepAborts(before, index, item);
        return created', updated', errors', Some(MultipleGames(name, matches));
      }
      if year < 0 {
        StepAborts(before, index, item);
        return created', updated', errors', Some(NegativeYear(name, year));
      }
      if matches == 1 {
        StepUpdates(before, index, item);
        var k := FindTitle(store.games, name);
        var g := store.games[k];
        store := store.(games := store.games[k := g.(releaseYear := year, genre := genre, userRating := rating)]);
        updated' := updated + 1;
      } else {
        StepInserts(before, index, item);
        var g := Game(store.nextGameId, name, year, genre, rating, None, None);
        store := store.(games := store.games + [g], nextGameId := store.nextGameId + 1);
        created' := created + 1;
      }
    }

    /** The import view on an uploaded document: the game table and its key
        counter become what `ImportDocument` says; users and comments stay. */
    method ImportJson(doc: Document) returns (outcome: ImportOutcome)
      requires Valid()
      modifies this
      ensures Valid()
      ensures var r := ImportDocument(old(store.games), old(store.nextGameId), doc);
              store == old(store).(games := r.games, nextGameId := r.nextId) && outcome == r.outcome
    {
      ImportKeepsStoreValid(store, doc);
      if doc.Malformed? {
        return Failed(MalformedJson(doc.detail));
      }
      var items := doc.items;
      ghost var games0, next0 := store.games, store.nextGameId;
      var created, updated, errors := 0, 0, [];
      var i := 0;
      while i < |items|
        invariant 0 <= i <= |items|
        invariant RunImport(games0, next0, items[..i]) == Running(store.games, store.nextGameId, created, updated, errors)
        invariant store == old(store).(games := store.games, nextGameId := store.nextGameId)
      {
        RunOneMore(games0, next0, items, i);
        var abort;
        created, updated, errors, abort := ImportEntry(i, items[i], created, updated, errors);
        if abort.Some? {
          StopAt(games0, next0, items, i);
          return Failed(abort.value);
        }
        i := i + 1;
      }
      assert items[..|items|] == items;
      outcome := Imported(created, updated, errors);
    }
  }
}

=== FILE: import_proofs.dfy ===
/** What an import guarantees over a whole document: what the table holds
    afterwards, that importing the same document twice leaves the table as
    the first import left it, that the import reads only the four columns it
    writes, and that importing an export gives the same table back. */
module ImportProofs {
  import opened Wrappers
  import opened Json
  import opened Models
  import opened Views
  import opened JsonImport

  // ---------------------------------------------------------------------
  // Counting titles
  // ---------------------------------------------------------------------

  lemma {:induction false} CountTitleZero(games: seq<Game>, title: string)
    ensures CountTitle(games, title) == 0 <==> forall j :: 0 <= j < |games| ==> games[j].title != title
    decreases |games|
  {
    if games != [] {
      var prefix := games[..|games| - 1];
      CountTitleZero(prefix, title);
      assert forall j :: 0 <= j < |prefix| ==> prefix[j] == games[j];
    }
  }

  /** A title counted once is carried by exactly one position. */
  lemma {:induction false} CountTitleOne(games: seq<Game>, title: string, i: nat)
    requires CountTitle(games, title) == 1 && i < |games| && games[i].title == title
    ensures forall j :: 0 <= j < |games| && j != i ==> games[j].title != title
    decreases |games|
  {
    var prefix := games[..|games| - 1];
    assert forall j :: 0 <= j < |prefix| ==> prefix[j] == games[j];
    if games[|games| - 1].title == title {
      CountTitleZero(prefix, title);
    } else {
      CountTitleOne(prefix, title, i);
    }
  }

  /** The count depends only on the titles. */
  lemma {:induction false} CountTitleSameTitles(a: seq<Game>, b: seq<Game>, title: string)
    requires |a| == |b| && forall j :: 0 <= j < |a| ==> a[j].title == b[j].title
    ensures CountTitle(a, title) == CountTitle(b, title)
    decreases |a|
  {
    if a != [] {
      CountTitleSameTitles(a[..|a| - 1], b[..|b| - 1], title);
    }
  }

  lemma CountTitleAppend(games: seq<Game>, g: Game, title: string)
    ensures CountTitle(games + [g], title) == CountTitle(games, title) + (if g.title == title then 1 else 0)
  {
    assert (games + [g])[..|games|] == games;
  }

  predicate DistinctTitles(games: seq<Game>) {
    forall i, j :: 0 <= i < |games| && 0 <= j < |games| && i != j ==> games[i].title != games[j].title
  }

  lemma {:induction false} CountTitleDistinct(games: seq<Game>, i: nat)
    requires DistinctTitles(games) && i < |games|
    ensures CountTitle(games, games[i].title) == 1
    decreases |games|
  {
    var prefix := games[..|games| - 1];
    assert forall j :: 0 <= j < |prefix| ==> prefix[j] == games[j];
    if i == |games| - 1 {
      CountTitleZero(prefix, games[i].title);
    } else {
      CountTitleDistinct(prefix, i);
    }
  }

  // ---------------------------------------------------------------------
  // What a completed walk leaves in the table
  // ---------------------------------------------------------------------

  /** The titles of the entries that have one. */
  function Titles(items: seq<Item>): set<string>
    decreases |items|
  {
    if items == [] then {}
    else
      var last := items[|items| - 1];
      Titles(items[..|items| - 1]) + (if Titled(last) then {TitleOf(last)} else {})
  }

  /** The values written by the last entry with this title. */
  function LastValues(items: seq<Item>, title: string): Values
    requires title in Titles(items)
    decreases |items|
  {
    var last := items[|items| - 1];
    if Titled(last) && TitleOf(last) == title then ValuesOf(last)
    else LastValues(items[..|items| - 1], title)
  }

  /** One error per object without a title, naming its position. */
  function ExpectedErrors(items: seq<Item>): seq<string>
    decreases |items|
  {
    if items == [] then []
    else
      var last := items[|items| - 1];
      ExpectedErrors(items[..|items| - 1])
      + (if last.Object? && !Titled(last) then [MissingTitle(|items| - 1)] else [])
  }

  /** Every entry is an object whose year, when it has a title, is not negative. */
  ghost predicate Importable(items: seq<Item>) {
    forall k :: 0 <= k < |items| ==> items[k].Object? && (Titled(items[k]) ==> ValuesOf(items[k]).year >= 0)
  }

  /** Each game whose title some entry carries holds that title's last values. */
  ghost predicate HoldsLastValues(items: seq<Item>, table: seq<Game>) {
    forall j :: 0 <= j < |table| && table[j].title in Titles(items) ==>
      GameValues(table[j]) == LastValues(items, table[j].title)
  }

  /** Every game whose title no entry carries is the game that was there before. */
  ghost predicate OthersUntouched(games: seq<Game>, items: seq<Item>, table: seq<Game>) {
    forall j :: 0 <= j < |table| && table[j].title !in Titles(items) ==> j < |games| && table[j] == games[j]
  }

  /** Inserted games carry titles the original table did not have. */
  ghost predicate InsertedAreNew(games: seq<Game>, table: seq<Game>) {
    forall j, k :: |games| <= j < |table| && 0 <= k < |games| ==> table[j].title != games[k].title
  }

  /** Each entry title names exactly one game. */
  ghost predicate TitlesUnique(items: seq<Item>, table: seq<Game>) {
    forall t :: t in Titles(items) ==> CountTitle(table, t) == 1
  }

  /** The table `r` left by a walk over `items` from `games` that ran to the end. */
  ghost predicate Upserted(games: seq<Game>, items: seq<Item>, r: ImportState)
    requires r.Running?
  {
    && HoldsLastValues(items, r.games)
    && OthersUntouched(games, items, r.games)
    && InsertedAreNew(games, r.games)
    && TitlesUnique(items, r.games)
    && Importable(items)
    && r.errors == ExpectedErrors(items)
  }

  lemma UpsertedAfterUntitled(games: seq<Game>, items: seq<Item>, p: ImportState)
    requires items != [] && p.Running?
    requires Upserted(games, items[..|items| - 1], p)
    requires items[|items| - 1].Object? && !Titled(items[|items| - 1])
    ensures Upserted(games, items, Step(p, |items| - 1, items[|items| - 1]))
  {
    var prefix := items[..|items| - 1];
    var r := Step(p, |items| - 1, items[|items| - 1]);
    assert r == p.(errors := p.errors + [MissingTitle(|items| - 1)]);
    assert Titles(items) == Titles(prefix);
    UntitledKeepsLastValues(items, r.games);
    UntitledKeepsImportable(items);
  }

  /** An entry without a title changes no title's last values. */
  lemma UntitledKeepsLastValues(items: seq<Item>, table: seq<Game>)
    requires items != [] && !Titled(items[|items| - 1])
    requires HoldsLastValues(items[..|items| - 1], table)
    ensures HoldsLastValues(items, table)
  {
    var prefix := items[..|items| - 1];
    assert Titles(items) == Titles(prefix);
    forall j | 0 <= j < |table| && table[j].title in Titles(items)
      ensures GameValues(table[j]) == LastValues(items, table[j].title)
    {
      assert LastValues(items, table[j].title) == LastValues(prefix, table[j].title);
    }
  }

  /** An object without a title keeps the entries importable. */
  lemma UntitledKeepsImportable(items: seq<Item>)
    requires items != [] && items[|items| - 1].Object? && !Titled(items[|items| - 1])
    requires Importable(items[..|items| - 1])
    ensures Importable(items)
  {
    var prefix := items[..|items| - 1];
    forall k | 0 <= k < |items|
      ensures items[k].Object? && (Titled(items[k]) ==> ValuesOf(items[k]).year >= 0)
    {
      if k < |prefix| {
        assert prefix[k] == items[k];
      }
    }
  }

  /** After one more titled entry, its title holds that entry's values; every other title keeps its last values. */
  lemma LastValuesStep(items: seq<Item>, t: string)
    requires items != [] && Titled(items[|items| - 1])
    ensures Titles(items) == Titles(items[..|items| - 1]) + {TitleOf(items[|items| - 1])}
    ensures t == TitleOf(items[|items| - 1]) ==> LastValues(items, t) == ValuesOf(items[|items| - 1])
    ensures t in Titles(items[..|items| - 1]) && t != TitleOf(items[|items| - 1]) ==>
              LastValues(items, t) == LastValues(items[..|items| - 1], t)
  {
  }

  /** Overwriting the one game with an entry's title keeps the table described. */
  lemma UpdatedTable(games: seq<Game>, items: seq<Item>, table: seq<Game>, i: nat)
    requires items != [] && Titled(items[|items| - 1]) && ValuesOf(items[|items| - 1]).year >= 0
    requires i < |table| && table[i].title == TitleOf(items[|items| - 1])
    requires CountTitle(table, table[i].title) == 1
    requires HoldsLastValues(items[..|items| - 1], table)
    requires OthersUntouched(games, items[..|items| - 1], table)
    requires InsertedAreNew(games, table)
    requires TitlesUnique(items[..|items| - 1], table)
    ensures var v := ValuesOf(items[|items| - 1]);
            var updated := table[i := table[i].(releaseYear := v.year, genre := v.genre, userRating := v.rating)];
            && HoldsLastValues(items, updated)
            && OthersUntouched(games, items, updated)
            && InsertedAreNew(games, updated)
            && TitlesUnique(items, updated)
  {
    var x := items[|items| - 1];
    var v := ValuesOf(x);
    var updated := table[i := table[i].(releaseYear := v.year, genre := v.genre, userRating := v.rating)];
    LastValuesStep(items, TitleOf(x));
    CountTitleOne(table, table[i].title, i);
    forall t | t in Titles(items) ensures CountTitle(updated, t) == 1 {
      CountTitleSameTitles(updated, table, t);
    }
    forall j | 0 <= j < |updated| && updated[j].title in Titles(items)
      ensures GameValues(updated[j]) == LastValues(items, updated[j].title)
    {
      LastValuesStep(items, updated[j].title);
    }
  }

  lemma UpsertedAfterUpdate(games: seq<Game>, items: seq<Item>, p: ImportState)
    requires items != [] && p.Running?
    requires Upserted(games, items[..|items| - 1], p)
    requires Titled(items[|items| - 1]) && ValuesOf(items[|items| - 1]).year >= 0
    requires CountTitle(p.games, TitleOf(items[|items| - 1])) == 1
    ensures Upserted(games, items, Step(p, |items| - 1, items[|items| - 1]))
  {
    var n := |items| - 1;
    var prefix, x := items[..n], items[n];
    var i := FindTitle(p.games, TitleOf(x));
    StepUpdates(p, n, x);
    UpdatedTable(games, items, p.games, i);
    TitledEntryImportable(items);
    TitledEntryNoError(items);
  }

  /** One more titled object keeps the entries importable. */
  lemma TitledEntryImportable(items: seq<Item>)
    requires items != [] && Importable(items[..|items| - 1])
    requires Titled(items[|items| - 1]) && ValuesOf(items[|items| - 1]).year >= 0
    ensures Importable(items)
  {
    var prefix := items[..|items| - 1];
    forall k | 0 <= k < |items|
      ensures items[k].Object? && (Titled(items[k]) ==> ValuesOf(items[k]).year >= 0)
    {
      if k < |prefix| {
        assert prefix[k] == items[k];
      }
    }
  }

  /** One more titled object adds no error. */
  lemma TitledEntryNoError(items: seq<Item>)
    requires items != [] && Titled(items[|items| - 1])
    ensures ExpectedErrors(items) == ExpectedErrors(items[..|items| - 1])
  {
    var last := items[|items| - 1];
    assert !(last.Object? && !Titled(last));
    assert ExpectedErrors(items) == ExpectedErrors(items[..|items| - 1]) + [];
  }

  /** The game inserted for a titled entry the table does not have. */
  function InsertedGame(item: Item, id: GameId): (g: Game)
    requires Titled(item) && ValuesOf(item).year >= 0
    ensures g.title == TitleOf(item) && GameValues(g) == ValuesOf(item) && InsertedRow(g, id)
  {
    var v := ValuesOf(item);
    Game(id, TitleOf(item), v.year, v.genre, v.rating, None, None)
  }

  /** Appending a game for an entry title the table does not have keeps the table described. */
  lemma InsertedTable(games: seq<Game>, items: seq<Item>, table: seq<Game>, id: GameId)
    requires items != [] && Titled(items[|items| - 1]) && ValuesOf(items[|items| - 1]).year >= 0
    requires CountTitle(table, TitleOf(items[|items| - 1])) == 0
    requires |games| <= |table| && forall j :: 0 <= j < |games| ==> table[j].title == games[j].title
    requires HoldsLastValues(items[..|items| - 1], table)
    requires OthersUntouched(games, items[..|items| - 1], table)
    requires InsertedAreNew(games, table)
    requires TitlesUnique(items[..|items| - 1], table)
    ensures var extended := table + [InsertedGame(items[|items| - 1], id)];
            && HoldsLastValues(items, extended)
            && OthersUntouched(games, items, extended)
            && InsertedAreNew(games, extended)
            && TitlesUnique(items, extended)
  {
    var g := InsertedGame(items[|items| - 1], id);
    var extended := table + [g];
    LastValuesStep(items, g.title);
    CountTitleZero(table, g.title);
    forall t | t in Titles(items) ensures CountTitle(extended, t) == 1 {
      CountTitleAppend(table, g, t);
    }
    forall j | 0 <= j < |extended| && extended[j].title in Titles(items)
      ensures GameValues(extended[j]) == LastValues(items, extended[j].title)
    {
      LastValuesStep(items, extended[j].title);
    }
    forall j, k | |games| <= j < |extended| && 0 <= k < |games| ensures extended[j].title != games[k].title {
      if j == |table| {
        assert table[k].title == games[k].title;
      }
    }
  }

  lemma UpsertedAfterInsert(games: seq<Game>, items: seq<Item>, p: ImportState)
    requires items != [] && p.Running?
    requires Upserted(games, items[..|items| - 1], p)
    requires |games| <= |p.games| && forall j :: 0 <= j < |games| ==> p.games[j].title == games[j].title
    requires Titled(items[|items| - 1]) && ValuesOf(items[|items| - 1]).year >= 0
    requires CountTitle(p.games, TitleOf(items[|items| - 1])) == 0
    ensures Upserted(games, items, Step(p, |items| - 1, items[|items| - 1]))
  {
    var n := |items| - 1;
    StepInserts(p, n, items[n]);
    InsertedTable(games, items, p.games, p.nextId);
    TitledEntryImportable(items);
    TitledEntryNoError(items);
  }

  /** A walk that ran to the end leaves the table described by `Upserted`. */
  lemma {:induction false} CompletedWalk(games: seq<Game>, nextId: GameId, items: seq<Item>)
    requires RunImport(games, nextId, items).Running?
    ensures Upserted(games, items, RunImport(games, nextId, items))
    decreases |items|
  {
    if items == [] {
      return;
    }
    var n := |items| - 1;
    var prefix, x := items[..n], items[n];
    var p := RunImport(games, nextId, prefix);
    assert p.Running?;
    CompletedWalk(games, nextId, prefix);
    assert RunImport(games, nextId, items) == Step(p, n, x);
    if !Titled(x) {
      UpsertedAfterUntitled(games, items, p);
    } else if CountTitle(p.games, TitleOf(x)) == 1 {
      UpsertedAfterUpdate(games, items, p);
    } else {
      UpsertedAfterInsert(games, items, p);
    }
  }

  /** An entry with nothing but a title creates a game with year 0, no genre and rating 0. */
  lemma TitleOnlyEntryCreatesDefaults(games: seq<Game>, nextId: GameId)
    requires forall j :: 0 <= j < |games| ==> games[j].title != "Chess"
    ensures ImportDocument(games, nextId, Items([Object(map["title" := JStr("Chess")])]))
         == ImportResult(games + [Game(nextId, "Chess", 0, "", 0, None, None)], nextId + 1, Imported(1, 0, []))
  {
    var items := [Object(map["title" := JStr("Chess")])];
    assert items[..0] == [];
    CountTitleZero(games, "Chess");
    StepInserts(Running(games, nextId, 0, 0, []), 0, items[0]);
  }

  /** The error text for the entry at position 0. */
  lemma MissingTitleOfFirst()
    ensures MissingTitle(0) == "Entry 0: missing title"
  {
    var digits := NatToDecimal(0);
    assert digits == [DigitChar(0)] == "0";
    assert "Entry " + digits + ": missing title" == "Entry 0: missing title";
  }

  /** An entry with an empty title is reported by position and changes nothing. */
  lemma EmptyTitleEntryIsReported(games: seq<Game>, nextId: GameId)
    ensures ImportDocument(games, nextId, Items([Object(map["title" := JStr(""), "release_year" := JInt(2020)])]))
         == ImportResult(games, nextId, Imported(0, 0, ["Entry 0: missing title"]))
  {
    var items := [Object(map["title" := JStr(""), "release_year" := JInt(2020)])];
    assert items[..0] == [];
    assert !Titled(items[0]);
    MissingTitleOfFirst();
    assert RunImport(games, nextId, items) == Running(games, nextId, 0, 0, [MissingTitle(0)]);
  }

  // ---------------------------------------------------------------------
  // Importing the same document twice
  // ---------------------------------------------------------------------

  lemma {:induction false} TitleInTitles(items: seq<Item>, k: nat)
    requires k < |items| && Titled(items[k])
    ensures TitleOf(items[k]) in Titles(items)
    decreases |items|
  {
    if k < |items| - 1 {
      var prefix := items[..|items| - 1];
      assert prefix[k] == items[k];
      TitleInTitles(prefix, k);
    }
  }

  /** Over a table in which every entry title names exactly one game, a walk
      only updates: it runs to the end and inserts nothing. */
  lemma {:induction false} WalkOnlyUpdates(t: seq<Game>, n: GameId, items: seq<Item>)
    requires Importable(items)
    requires forall title :: title in Titles(items) ==> CountTitle(t, title) == 1
    ensures RunImport(t, n, items).Running? && |RunImport(t, n, items).games| == |t|
    decreases |items|
  {
    if items != [] {
      var k := |items| - 1;
      var prefix, x := items[..k], items[k];
      assert forall j :: 0 <= j < |prefix| ==> prefix[j] == items[j];
      WalkOnlyUpdates(t, n, prefix);
      var p := RunImport(t, n, prefix);
      if Titled(x) {
        TitleInTitles(items, k);
        CountTitleSameTitles(p.games, t, TitleOf(x));
        StepUpdates(p, k, x);
      }
    }
  }

  /** Re-running a walk that ran to the end rewrites every game with the values
      it already holds: same table, nothing created, every titled entry updated. */
  lemma ReimportCompleted(games: seq<Game>, nextId: GameId, items: seq<Item>)
    requires RunImport(games, nextId, items).Running?
    ensures var r1 := RunImport(games, nextId, items);
            RunImport(r1.games, r1.nextId, items) == Running(r1.games, r1.nextId, 0, r1.created + r1.updated, r1.errors)
  {
    var r1 := RunImport(games, nextId, items);
    CompletedWalk(games, nextId, items);
    WalkOnlyUpdates(r1.games, r1.nextId, items);
    var r2 := RunImport(r1.games, r1.nextId, items);
    CompletedWalk(r1.games, r1.nextId, items);
    forall j | 0 <= j < |r1.games| ensures r2.games[j] == r1.games[j] {
      assert SameIdentity(r2.games[j], r1.games[j]);
      if r1.games[j].title in Titles(items) {
        assert GameValues(r2.games[j]) == GameValues(r1.games[j]);
      }
    }
    assert r2.games == r1.games;
  }

  /** A walk that stopped did so at some entry, after a prefix that ran to the end. */
  lemma {:induction false} AbortPoint(games: seq<Game>, nextId: GameId, items: seq<Item>) returns (k: nat)
    requires RunImport(games, nextId, items).Aborted?
    ensures k < |items| && RunImport(games, nextId, items[..k]).Running?
    ensures Step(RunImport(games, nextId, items[..k]), k, items[k]) == RunImport(games, nextId, items)
    decreases |items|
  {
    var prefix := items[..|items| - 1];
    if RunImport(games, nextId, prefix).Aborted? {
      k := AbortPoint(games, nextId, prefix);
      assert prefix[..k] == items[..k] && prefix[k] == items[k];
    } else {
      k := |items| - 1;
      assert items[..k] == prefix;
    }
  }

  /** Whether an entry raises depends only on the table, not on the counters. */
  lemma StepAbortIgnoresCounters(p: ImportState, q: ImportState, index: nat, item: Item)
    requires p.Running? && q.Running? && p.games == q.games && p.nextId == q.nextId
    requires Step(p, index, item).Aborted?
    ensures Step(q, index, item) == Step(p, index, item)
  {
    if item.Object? && Titled(item) && ValuesOf(item).year >= 0 {
      if CountTitle(p.games, TitleOf(item)) == 1 {
        StepUpdates(p, index, item);
      } else if CountTitle(p.games, TitleOf(item)) == 0 {
        StepInserts(p, index, item);
      }
    }
  }

  /** A re-run that reaches the entry where the first walk stopped, over the
      same table, stops there too. */
  lemma RerunStopsAgain(t: seq<Game>, n: GameId, items: seq<Item>, k: nat, p: ImportState)
    requires k < |items| && p.Running? && p.games == t && p.nextId == n
    requires RunImport(t, n, items[..k]).Running? && RunImport(t, n, items[..k]).games == t
    requires RunImport(t, n, items[..k]).nextId == n
    requires Step(p, k, items[k]).Aborted?
    ensures RunImport(t, n, items) == Step(p, k, items[k])
  {
    StepAbortIgnoresCounters(p, RunImport(t, n, items[..k]), k, items[k]);
    StopAt(t, n, items, k);
  }

  /** Re-running a walk that stopped stops again at the same entry, with the same table. */
  lemma ReimportStopped(games: seq<Game>, nextId: GameId, items: seq<Item>)
    requires RunImport(games, nextId, items).Aborted?
    ensures var r1 := RunImport(games, nextId, items);
            RunImport(r1.games, r1.nextId, items) == r1
  {
    var k := AbortPoint(games, nextId, items);
    var p := RunImport(games, nextId, items[..k]);
    ReimportCompleted(games, nextId, items[..k]);
    RerunStopsAgain(p.games, p.nextId, items, k, p);
  }

  /** Importing the same entries twice: the second import leaves the table as
      the first left it. If the first ran to the end, so does the second, which
      creates nothing, counts every titled entry as updated and reports the same
      errors; if the first stopped, the second stops at the same entry for the
      same reason. */
  lemma ImportIsIdempotent(games: seq<Game>, nextId: GameId, items: seq<Item>)
    ensures var r1 := RunImport(games, nextId, items);
            var r2 := RunImport(r1.games, r1.nextId, items);
            && r2.games == r1.games && r2.nextId == r1.nextId
            && (r1.Running? ==>
                  r2.Running? && r2.created == 0 && r2.updated == r1.created + r1.updated && r2.errors == r1.errors)
            && (r1.Aborted? ==> r2 == r1)
  {
    if RunImport(games, nextId, items).Running? {
      ReimportCompleted(games, nextId, items);
    } else {
      ReimportStopped(games, nextId, items);
    }
  }

  /** The same for a whole upload, as the view runs it. */
  lemma ImportDocumentIsIdempotent(games: seq<Game>, nextId: GameId, doc: Document)
    ensures var r1 := ImportDocument(games, nextId, doc);
            var r2 := ImportDocument(r1.games, r1.nextId, doc);
            && r2.games == r1.games && r2.nextId == r1.nextId
            && (r2.outcome.Imported? ==> r2.outcome.created == 0)
            && (r1.outcome.Imported? ==> r2.outcome.Imported? && r2.outcome.errors == r1.outcome.errors)
  {
    if doc.Items? {
      ImportIsIdempotent(games, nextId, doc.items);
    }
  }

  // ---------------------------------------------------------------------
  // Keys the import does not read
  // ---------------------------------------------------------------------

  /** The entry with `key` removed from it. */
  function WithoutKey(item: Item, key: string): (r: Item)
    ensures r.Object? == item.Object?
    ensures r.Object? ==> r.fields.Keys == item.fields.Keys - {key}
  {
    match item
    case Object(fields) => Object(fields - {key})
    case NotObject(_) => item
  }

  /** Every entry with `key` removed. */
  function StripKey(items: seq<Item>, key: string): (r: seq<Item>)
    ensures |r| == |items|
    ensures forall i :: 0 <= i < |items| ==> r[i] == WithoutKey(items[i], key)
  {
    seq(|items|, i requires 0 <= i < |items| => WithoutKey(items[i], key))
  }

  predicate ReadKey(key: string) {
    key == "title" || key == "release_year" || key == "genre" || key == "user_rating"
  }

  lemma StepIgnoresKey(st: ImportState, index: nat, item: Item, key: string)
    requires st.Running? && !ReadKey(key)
    ensures Step(st, index, WithoutKey(item, key)) == Step(st, index, item)
  {
    if item.Object? {
      var f, f' := item.fields, WithoutKey(item, key).fields;
      assert Get(f', "title") == Get(f, "title");
      assert Get(f', "release_year") == Get(f, "release_year");
      assert Get(f', "genre") == Get(f, "genre");
      assert Get(f', "user_rating") == Get(f, "user_rating");
    }
  }

  /** Keys other than title, release_year, genre and user_rating (such as the
      exported `owner_id`) make no difference to an import. */
  lemma {:induction false} ImportIgnoresKey(games: seq<Game>, nextId: GameId, items: seq<Item>, key: string)
    requires !ReadKey(key)
    ensures RunImport(games, nextId, StripKey(items, key)) == RunImport(games, nextId, items)
    decreases |items|
  {
    if items != [] {
      var n := |items| - 1;
      var prefix, stripped := items[..n], StripKey(items, key);
      assert stripped[..n] == StripKey(prefix, key);
      ImportIgnoresKey(games, nextId, prefix, key);
      var p := RunImport(games, nextId, prefix);
      assert stripped[n] == WithoutKey(items[n], key);
      if p.Running? {
        StepIgnoresKey(p, n, items[n], key);
      }
    }
  }

  // ---------------------------------------------------------------------
  // Export, then import
  // ---------------------------------------------------------------------

  /** The export as the import reads it back: each exported record an object. */
  function ExportedItems(games: seq<Game>): (items: seq<Item>)
    ensures |items| == |games|
    ensures forall i :: 0 <= i < |games| ==> items[i] == Object(ExportRecord(games[i]))
  {
    var records := ExportGames(games);
    seq(|records|, i requires 0 <= i < |records| => Object(records[i]))
  }

  /** The exported record of a game is read back as that game's title and values. */
  lemma ExportedRecordReadsBack(g: Game)
    requires g.title != "" && g.userRating <= 10
    ensures Titled(Object(ExportRecord(g)))
    ensures TitleOf(Object(ExportRecord(g))) == g.title
    ensures ValuesOf(Object(ExportRecord(g))) == GameValues(g)
  {
  }

  /** Re-importing the exported record of game `k` updates that game with the values it already has. */
  lemma ExportedEntryStep(games: seq<Game>, nextId: GameId, k: nat)
    requires k < |games| && DistinctTitles(games) && RatingsInRange(games)
    requires forall i :: 0 <= i < |games| ==> games[i].title != ""
    ensures Step(Running(games, nextId, 0, k, []), k, Object(ExportRecord(games[k]))) == Running(games, nextId, 0, k + 1, [])
  {
    var g := games[k];
    var item := Object(ExportRecord(g));
    ExportedRecordReadsBack(g);
    CountTitleDistinct(games, k);
    StepUpdates(Running(games, nextId, 0, k, []), k, item);
    var i := FindTitle(games, g.title);
    assert i == k;
    assert games[i := games[i].(releaseYear := g.releaseYear, genre := g.genre, userRating := g.userRating)] == games;
  }

  lemma {:induction false} ReimportExportPrefix(games: seq<Game>, nextId: GameId, k: nat)
    requires k <= |games| && DistinctTitles(games) && RatingsInRange(games)
    requires forall i :: 0 <= i < |games| ==> games[i].title != ""
    ensures RunImport(games, nextId, ExportedItems(games)[..k]) == Running(games, nextId, 0, k, [])
  {
    if k > 0 {
      var items := ExportedItems(games);
      ReimportExportPrefix(games, nextId, k - 1);
      RunOneMore(games, nextId, items, k - 1);
      ExportedEntryStep(games, nextId, k - 1);
    }
  }

  /** Importing the export of a table whose titles are non-empty and distinct
      and whose ratings are in range changes nothing: every game is updated
      with the values it has, none is created, and there are no errors. */
  lemma ExportThenImport(games: seq<Game>, nextId: GameId)
    requires DistinctTitles(games) && RatingsInRange(games)
    requires forall i :: 0 <= i < |games| ==> games[i].title != ""
    ensures ImportDocument(games, nextId, Items(ExportedItems(games)))
         == ImportResult(games, nextId, Imported(0, |games|, []))
  {
    ReimportExportPrefix(games, nextId, |games|);
    assert ExportedItems(games)[..|games|] == ExportedItems(games);
  }
}

=== FILE: json.dfy ===
/** Values of an already-decoded JSON document, and the Python conversions the
    import applies to them: truthiness (`x or default`), `int(...)` and the
    `str(...)` that Django applies when a value is stored in a text column. */
module Json {
  import opened Wrappers

  /** A JSON value as `json.loads` returns it. A nested array or object is
      opaque here: only whether it is empty and its Python `str()` text matter. */
  datatype JValue =
    | JNull
    | JBool(b: bool)
    | JInt(i: int)
    | JStr(s: string)
    | JCompound(isEmpty: bool, text: string)

  /** An element of the decoded top-level value: an object (a Python dict), or anything else. */
  datatype Item = Object(fields: map<string, JValue>) | NotObject(value: JValue)

  /** The decoded upload: either the decoder rejected it, or it is a sequence of items. */
  datatype Document = Malformed(detail: string) | Items(items: seq<Item>)

  /** `fields.get(key)`: a missing key reads as `None`, like an explicit `null`. */
  function Get(fields: map<string, JValue>, key: string): (v: JValue)
    ensures key !in fields ==> v == JNull
    ensures key in fields ==> v == fields[key]
  {
    if key in fields then fields[key] else JNull
  }

  /** Python truthiness: `None`, `False`, `0`, `""` and empty containers are false. */
  predicate Falsy(v: JValue): (b: bool)
    ensures v.JNull? ==> b
    ensures v.JBool? ==> (b <==> !v.b)
    ensures v.JInt? ==> (b <==> v.i == 0)
    ensures v.JStr? ==> (b <==> |v.s| == 0)
    ensures v.JCompound? ==> (b <==> v.isEmpty)
  {
    match v
    case JNull => true
    case JBool(b) => !b
    case JInt(i) => i == 0
    case JStr(s) => s == ""
    case JCompound(empty, _) => empty
  }

  predicate IsDigit(c: char) {
    '0' <= c <= '9'
  }

  predicate AllDigits(s: string) {
    forall k :: 0 <= k < |s| ==> IsDigit(s[k])
  }

  function DigitValue(c: char): nat
    requires IsDigit(c)
  {
    c as int - '0' as int
  }

  function DigitChar(d: nat): (c: char)
    requires d < 10
    ensures IsDigit(c) && DigitValue(c) == d
  {
    ('0' as int + d) as char
  }

  /** The number a non-empty run of decimal digits denotes. */
  function DigitsValue(s: string): nat
    requires AllDigits(s)
    decreases |s|
  {
    if s == [] then 0 else DigitsValue(s[..|s| - 1]) * 10 + DigitValue(s[|s| - 1])
  }

  /** Python's `int(s)` on a string: an optional sign followed by decimal digits,
      or `None` where Python raises `ValueError`. */
  function ParseInt(s: string): (r: Option<int>)
    ensures r.Some? <==> s != [] && (AllDigits(s) || (|s| > 1 && (s[0] == '+' || s[0] == '-') && AllDigits(s[1..])))
    ensures s != [] && AllDigits(s) ==> r == Some(DigitsValue(s) as int)
    ensures |s| > 1 && s[0] == '+' && AllDigits(s[1..]) ==> r == Some(DigitsValue(s[1..]) as int)
    ensures |s| > 1 && s[0] == '-' && AllDigits(s[1..]) ==> r == Some(-(DigitsValue(s[1..]) as int))
  {
    if s != [] && (s[0] == '+' || s[0] == '-') then
      var digits := s[1..];
      if digits != [] && AllDigits(digits) then
        var magnitude: int := DigitsValue(digits);
        Some(if s[0] == '-' then -magnitude else magnitude)
      else None
    else if s != [] && AllDigits(s) then Some(DigitsValue(s))
    else None
  }

  /** The canonical decimal form of a natural number (Python's `str(n)`). */
  function NatToDecimal(n: nat): (s: string)
    ensures s != [] && AllDigits(s)
    ensures DigitsValue(s) == n
    ensures s[0] == '0' ==> n == 0
    ensures n == 0 ==> s == "0"
    decreases n
  {
    if n < 10 then [DigitChar(n)]
    else
      var prefix := NatToDecimal(n / 10);
      var s := prefix + [DigitChar(n % 10)];
      assert s[..|s| - 1] == prefix;
      s
  }

  /** Python's `str(i)` for an integer. */
  function IntToDecimal(i: int): (s: string)
    ensures s != []
    ensures i >= 0 ==> AllDigits(s) && DigitsValue(s) == i
    ensures i < 0 ==> s[0] == '-' && AllDigits(s[1..]) && DigitsValue(s[1..]) == -i
    ensures i >= 0 ==> (s[0] == '0' ==> i == 0)
    ensures i == 0 ==> s == "0"
    ensures i < 0 ==> |s| > 1 && s[1] != '0'
  {
    if i < 0 then
      var s := "-" + NatToDecimal(-i);
      assert s[1..] == NatToDecimal(-i);
      s
    else NatToDecimal(i)
  }

  /** Parsing reads back what formatting wrote: `int(str(i)) == i`. */
  lemma ParseIntToDecimal(i: int)
    ensures ParseInt(IntToDecimal(i)) == Some(i)
  {
  }

  /** Python's `str(v)`: the text Django stores when `v` is assigned to a text column. */
  function StrOf(v: JValue): (s: string)
    ensures v.JStr? ==> s == v.s
    ensures v.JInt? ==> ParseInt(s) == Some(v.i) && s == IntToDecimal(v.i)
    ensures v.JBool? ==> s == (if v.b then "True" else "False")
    ensures v.JNull? ==> s == "None"
  {
    match v
    case JNull => "None"
    case JBool(b) => if b then "True" else "False"
    case JInt(i) => ParseIntToDecimal(i); IntToDecimal(i)
    case JStr(s) => s
    case JCompound(_, text) => text
  }

  /** `int(v or 0)`, with `TypeError` and `ValueError` replaced by 0. */
  function IntOrZero(v: JValue): (r: int)
    ensures Falsy(v) ==> r == 0
    ensures v.JInt? ==> r == v.i
    ensures v.JCompound? ==> r == 0
    ensures v == JBool(true) ==> r == 1
    ensures v.JStr? ==> r == match ParseInt(v.s) case Some(x) => x case None => 0
  {
    if Falsy(v) then 0
    else
      match v
      case JBool(b) => 1
      case JInt(i) => i
      case JStr(s) => (match ParseInt(s) case Some(x) => x case None => 0)
      case _ => 0
  }

  /** An integer that went out as its decimal text comes back as the same integer. */
  lemma IntOrZeroOfDecimal(i: int)
    ensures IntOrZero(JStr(IntToDecimal(i))) == i
  {
    ParseIntToDecimal(i);
  }
}

=== FILE: models.dfy ===
/** The `Game` and `Comment` tables, the cover-size validator, the default
    values a new row receives, the newest-first ordering of comments, and what
    the database does to dependent rows when a game or a user is deleted. */
module Models {
  import opened Wrappers
  import opened Sequences

  /** Users belong to the authentication framework; the tables refer to them by id. */
  type UserId = nat
  type GameId = nat
  type CommentId = nat

  /** The cover size limit, in megabytes and in bytes. */
  const MaxCoverMegabytes: nat := 2
  const MaxCoverBytes: nat := MaxCoverMegabytes * 1024 * 1024

  /** An uploaded cover image; only its size in bytes matters to the rules. */
  datatype Cover = Cover(size: nat)

  /** A row of the game table. `releaseYear` is a positive-integer column, so
      never negative; `userRating` is a small positive-integer column. */
  datatype Game = Game(
    id: GameId,
    title: string,
    releaseYear: nat,
    genre: string,
    userRating: nat,
    cover: Option<Cover>,
    owner: Option<UserId>)

  /** A row of the comment table. */
  datatype Comment = Comment(
    id: CommentId,
    game: GameId,
    author: UserId,
    text: string,
    createdAt: int,
    isVisible: bool)

  /** The field errors raised by validators. */
  datatype ValidationError =
    | RatingOutOfRange(rating: int)
    | ImageTooLarge(size: nat)
    | YearBelowZero(year: int)

  /** The cover validator: an image of more than 2 MB is refused. */
  function ValidateImageSize(cover: Cover): (r: Outcome<ValidationError>)
    ensures r == Pass <==> cover.size <= 2097152
    ensures r.Fail? ==> r.error == ImageTooLarge(cover.size)
  {
    if cover.size > MaxCoverBytes then Fail(ImageTooLarge(cover.size)) else Pass
  }

  /** The whole database: the known users and the two tables, with the next
      primary key each table will hand out. */
  datatype Store = Store(
    users: set<UserId>,
    games: seq<Game>,
    comments: seq<Comment>,
    nextGameId: GameId,
    nextCommentId: CommentId)

  function GameKey(g: Game): GameId { g.id }

  function CommentKey(c: Comment): CommentId { c.id }

  predicate HasGame(games: seq<Game>, id: GameId) {
    exists i :: 0 <= i < |games| && games[i].id == id
  }

  /** Primary keys are unique and below the next key to be handed out, and
      every owner is a known user. */
  ghost predicate GamesValid(games: seq<Game>, nextGameId: GameId, users: set<UserId>) {
    && DistinctKeys(games, GameKey)
    && (forall i :: 0 <= i < |games| ==> games[i].id < nextGameId)
    && (forall i :: 0 <= i < |games| && games[i].owner.Some? ==> games[i].owner.value in users)
  }

  /** Comment keys are unique, and every comment refers to an existing game
      and an existing author (both foreign keys are required). */
  ghost predicate CommentsValid(s: Store) {
    && DistinctKeys(s.comments, CommentKey)
    && (forall i :: 0 <= i < |s.comments| ==> s.comments[i].id < s.nextCommentId)
    && (forall i :: 0 <= i < |s.comments| ==> s.comments[i].author in s.users)
    && (forall i :: 0 <= i < |s.comments| ==> HasGame(s.games, s.comments[i].game))
  }

  ghost predicate StoreValid(s: Store) {
    GamesValid(s.games, s.nextGameId, s.users) && CommentsValid(s)
  }

  /** Every rating lies in the 0-10 range the application intends. */
  predicate RatingsInRange(games: seq<Game>) {
    forall i :: 0 <= i < |games| ==> games[i].userRating <= 10
  }

  /** Row conditions used by the deletions and queries below. */
  function GameIdIsNot(id: GameId): Game -> bool { (g: Game) => g.id != id }

  function OnOtherGame(id: GameId): Comment -> bool { (c: Comment) => c.game != id }

  function OnGame(id: GameId): Comment -> bool { (c: Comment) => c.game == id }

  function ByOtherAuthor(uid: UserId): Comment -> bool { (c: Comment) => c.author != uid }

  /** Deleting a game: the game row goes, and so do its comments (CASCADE). */
  function DeleteGame(s: Store, id: GameId): (r: Store)
    ensures r.users == s.users && r.nextGameId == s.nextGameId && r.nextCommentId == s.nextCommentId
    ensures forall g :: g in r.games <==> g in s.games && g.id != id
    ensures forall c :: c in r.comments <==> c in s.comments && c.game != id
    ensures forall g :: g in r.games ==> multiset(r.games)[g] == multiset(s.games)[g]
    ensures forall c :: c in r.comments ==> multiset(r.comments)[c] == multiset(s.comments)[c]
  {
    s.(games := Filter(s.games, GameIdIsNot(id)),
       comments := Filter(s.comments, OnOtherGame(id)))
  }

  /** The game row as it is after its owner's account is deleted (SET_NULL). */
  function Orphaned(g: Game, uid: UserId): Game {
    if g.owner == Some(uid) then g.(owner := None) else g
  }

  /** Deleting a user: their games stay but lose their owner (SET_NULL); their
      comments go (CASCADE). */
  function DeleteUser(s: Store, uid: UserId): (r: Store)
    ensures r.users == s.users - {uid}
    ensures r.nextGameId == s.nextGameId && r.nextCommentId == s.nextCommentId
    ensures |r.games| == |s.games|
    ensures forall i :: 0 <= i < |s.games| ==>
      && r.games[i].owner == (if s.games[i].owner == Some(uid) then None else s.games[i].owner)
      && r.games[i] == s.games[i].(owner := r.games[i].owner)
    ensures forall c :: c in r.comments <==> c in s.comments && c.author != uid
    ensures forall c :: c in r.comments ==> multiset(r.comments)[c] == multiset(s.comments)[c]
  {
    s.(users := s.users - {uid},
       games := seq(|s.games|, i requires 0 <= i < |s.games| => Orphaned(s.games[i], uid)),
       comments := Filter(s.comments, ByOtherAuthor(uid)))
  }

  /** Every row kept by a filter is a row of the original sequence, at some position. */
  lemma KeptRowHasPosition<T(!new)>(s: seq<T>, p: T -> bool, k: nat)
    requires k < |Filter(s, p)|
    ensures exists i :: 0 <= i < |s| && s[i] == Filter(s, p)[k]
  {
    assert Filter(s, p)[k] in s;
  }

  /** After a game is deleted the store is still consistent: in particular no
      comment refers to the deleted game, whose comments went with it. */
  lemma DeleteGameKeepsStoreValid(s: Store, id: GameId)
    requires StoreValid(s)
    ensures StoreValid(DeleteGame(s, id))
    ensures !HasGame(DeleteGame(s, id).games, id)
    ensures forall i :: 0 <= i < |DeleteGame(s, id).comments| ==> DeleteGame(s, id).comments[i].game != id
  {
    var r := DeleteGame(s, id);
    FilterKeepsDistinctKeys(s.games, GameIdIsNot(id), GameKey);
    FilterKeepsDistinctKeys(s.comments, OnOtherGame(id), CommentKey);
    forall i | 0 <= i < |r.games|
      ensures r.games[i].id < r.nextGameId && r.games[i].id != id
      ensures r.games[i].owner.Some? ==> r.games[i].owner.value in r.users
    {
      KeptRowHasPosition(s.games, GameIdIsNot(id), i);
    }
    forall i | 0 <= i < |r.comments|
      ensures r.comments[i].author in r.users && r.comments[i].id < r.nextCommentId
      ensures r.comments[i].game != id
    {
      KeptRowHasPosition(s.comments, OnOtherGame(id), i);
    }
    forall i | 0 <= i < |r.comments| ensures HasGame(r.games, r.comments[i].game) {
      KeptRowHasPosition(s.comments, OnOtherGame(id), i);
      OtherGameKept(s.games, id, r.comments[i].game);
    }
  }

  /** A game other than the deleted one is still there after the deletion. */
  lemma OtherGameKept(games: seq<Game>, id: GameId, other: GameId)
    requires HasGame(games, other) && other != id
    ensures HasGame(Filter(games, GameIdIsNot(id)), other)
  {
    var j :| 0 <= j < |games| && games[j].id == other;
    var kept := Filter(games, GameIdIsNot(id));
    assert games[j] in kept;
    var m :| 0 <= m < |kept| && kept[m] == games[j];
  }

  /** Clearing owners keeps every game, so every game id is still present. */
  lemma OrphanedGamesKeepIds(s: Store, uid: UserId, other: GameId)
    requires HasGame(s.games, other)
    ensures HasGame(DeleteUser(s, uid).games, other)
  {
    var j :| 0 <= j < |s.games| && s.games[j].id == other;
    assert DeleteUser(s, uid).games[j].id == other;
  }

  /** Clearing the deleted user's ownerships keeps the game table consistent. */
  lemma OrphanedGamesValid(s: Store, uid: UserId)
    requires GamesValid(s.games, s.nextGameId, s.users)
    ensures GamesValid(DeleteUser(s, uid).games, s.nextGameId, s.users - {uid})
  {
    var games := DeleteUser(s, uid).games;
    forall i, j | 0 <= i < |games| && 0 <= j < |games| && i != j ensures GameKey(games[i]) != GameKey(games[j]) {
      assert GameKey(s.games[i]) != GameKey(s.games[j]);
    }
  }

  /** The deleted user's comments go, so the remaining ones are still consistent. */
  lemma RemainingCommentsValid(s: Store, uid: UserId)
    requires StoreValid(s)
    ensures CommentsValid(DeleteUser(s, uid))
  {
    var r := DeleteUser(s, uid);
    FilterKeepsDistinctKeys(s.comments, ByOtherAuthor(uid), CommentKey);
    forall i | 0 <= i < |r.comments|
      ensures r.comments[i].author in r.users && r.comments[i].id < r.nextCommentId
      ensures HasGame(r.games, r.comments[i].game)
    {
      KeptRowHasPosition(s.comments, ByOtherAuthor(uid), i);
      OrphanedGamesKeepIds(s, uid, r.comments[i].game);
    }
  }

  /** After a user is deleted the store is still consistent, and nothing in it
      refers to that user any more. */
  lemma DeleteUserKeepsStoreValid(s: Store, uid: UserId)
    requires StoreValid(s)
    ensures StoreValid(DeleteUser(s, uid))
    ensures forall i :: 0 <= i < |DeleteUser(s, uid).games| ==> DeleteUser(s, uid).games[i].owner != Some(uid)
    ensures forall i :: 0 <= i < |DeleteUser(s, uid).comments| ==> DeleteUser(s, uid).comments[i].author != uid
  {
    OrphanedGamesValid(s, uid);
    RemainingCommentsValid(s, uid);
    var r := DeleteUser(s, uid);
    forall i | 0 <= i < |r.comments| ensures r.comments[i].author != uid {
      assert r.comments[i] in r.comments;
    }
  }

  /** The row inserted for a new comment: `created_at` is stamped with the
      current time and the comment starts out visible. */
  function NewComment(id: CommentId, game: GameId, author: UserId, text: string, now: int): (c: Comment)
    ensures c.isVisible && c.createdAt == now
    ensures c.game == game && c.author == author && c.text == text && c.id == id
  {
    Comment(id, game, author, text, now, true)
  }

  /** Inserting a comment into the store with the next primary key. */
  function InsertComment(s: Store, game: GameId, author: UserId, text: string, now: int): (r: Store)
    ensures r.comments == s.comments + [NewComment(s.nextCommentId, game, author, text, now)]
    ensures r.nextCommentId == s.nextCommentId + 1
    ensures r == s.(comments := r.comments, nextCommentId := r.nextCommentId)
  {
    s.(comments := s.comments + [NewComment(s.nextCommentId, game, author, text, now)],
       nextCommentId := s.nextCommentId + 1)
  }

  /** A comment inserted for an existing game by an existing user keeps the store consistent. */
  lemma InsertCommentKeepsStoreValid(s: Store, game: GameId, author: UserId, text: string, now: int)
    requires StoreValid(s) && HasGame(s.games, game) && author in s.users
    ensures StoreValid(InsertComment(s, game, author, text, now))
  {
    var r := InsertComment(s, game, author, text, now);
    assert DistinctKeys(r.comments, CommentKey) by {
      forall i, j | 0 <= i < |r.comments| && 0 <= j < |r.comments| && i != j
        ensures CommentKey(r.comments[i]) != CommentKey(r.comments[j])
      {
        if i < |s.comments| && j < |s.comments| {
          assert r.comments[i] == s.comments[i] && r.comments[j] == s.comments[j];
        }
      }
    }
  }

  /** The comment ordering: newest first, by creation time. */
  function NewestFirst(a: Comment, b: Comment): bool {
    a.createdAt >= b.createdAt
  }

  lemma NewestFirstIsTotalPreorder()
    ensures TotalPreorder(NewestFirst)
  {
  }

  /** The comments of one game, as the default ordering of the comment table presents them. */
  function GameComments(s: Store, game: GameId): (r: seq<Comment>)
    ensures forall i, j :: 0 <= i < j < |r| ==> r[i].createdAt >= r[j].createdAt
    ensures forall c :: c in r <==> c in s.comments && c.game == game
    ensures forall c :: c in r ==> multiset(r)[c] == multiset(s.comments)[c]
  {
    NewestFirstIsTotalPreorder();
    Sort(Filter(s.comments, OnGame(game)), NewestFirst)
  }

  lemma EarlierComments(comments: seq<Comment>, game: GameId, now: int)
    requires forall i :: 0 <= i < |comments| && comments[i].game == game ==> comments[i].createdAt < now
    ensures forall d :: d in comments && d.game == game ==> d.createdAt < now
  {
  }

  /** A comment newer than every other comment on its game is listed first. */
  lemma {:induction false} NewestCommentListedFirst(s: Store, game: GameId, author: UserId, text: string, now: int)
    requires forall i :: 0 <= i < |s.comments| && s.comments[i].game == game ==> s.comments[i].createdAt < now
    ensures var r := InsertComment(s, game, author, text, now);
            GameComments(r, game) != [] && GameComments(r, game)[0] == NewComment(s.nextCommentId, game, author, text, now)
  {
    var r := InsertComment(s, game, author, text, now);
    var c := NewComment(s.nextCommentId, game, author, text, now);
    var listed := GameComments(r, game);
    assert c in r.comments;
    var k :| 0 <= k < |listed| && listed[k] == c;
    var first := listed[0];
    assert first.createdAt >= now;
    assert first in s.comments + [c] && first.game == game;
    EarlierComments(s.comments, game, now);
  }
}

=== FILE: sequences.dfy ===
/** Sequence operations that the database performs for a query: keeping the
    rows that match a condition, and ordering rows by an `ORDER BY` key. */
module Sequences {

  /** The rows of `s` that satisfy `p`, in their original order. */
  function Filter<T(!new)>(s: seq<T>, p: T -> bool): (r: seq<T>)
    ensures forall x :: x in r <==> x in s && p(x)
    ensures forall x :: multiset(r)[x] == if p(x) then multiset(s)[x] else 0
    ensures |r| <= |s|
  {
    if s == [] then []
    else
      assert s == [s[0]] + s[1..];
      (if p(s[0]) then [s[0]] else []) + Filter(s[1..], p)
  }

  /** No two positions of `s` carry the same key. */
  predicate DistinctKeys<T, K(==)>(s: seq<T>, key: T -> K) {
    forall i, j :: 0 <= i < |s| && 0 <= j < |s| && i != j ==> key(s[i]) != key(s[j])
  }

  lemma DistinctKeysTail<T, K>(s: seq<T>, key: T -> K)
    requires s != [] && DistinctKeys(s, key)
    ensures DistinctKeys(s[1..], key)
    ensures forall y :: y in s[1..] ==> key(y) != key(s[0])
  {
    forall i, j | 0 <= i < |s| - 1 && 0 <= j < |s| - 1 && i != j ensures key(s[1..][i]) != key(s[1..][j]) {
      assert s[1..][i] == s[i + 1] && s[1..][j] == s[j + 1];
    }
    forall y | y in s[1..] ensures key(y) != key(s[0]) {
      var m :| 0 <= m < |s| - 1 && s[1..][m] == y;
      assert s[m + 1] == y;
    }
  }

  lemma DistinctKeysCons<T, K>(h: T, t: seq<T>, key: T -> K)
    requires DistinctKeys(t, key) && forall y :: y in t ==> key(y) != key(h)
    ensures DistinctKeys([h] + t, key)
  {
    var r := [h] + t;
    forall i, j | 0 <= i < |r| && 0 <= j < |r| && i != j ensures key(r[i]) != key(r[j]) {
      if i > 0 {
        assert r[i] == t[i - 1];
      }
      if j > 0 {
        assert r[j] == t[j - 1];
      }
    }
  }

  /** Deleting rows never makes two remaining rows share a key. */
  lemma {:induction false} FilterKeepsDistinctKeys<T(!new), K>(s: seq<T>, p: T -> bool, key: T -> K)
    requires DistinctKeys(s, key)
    ensures DistinctKeys(Filter(s, p), key)
  {
    if s != [] {
      var rest := Filter(s[1..], p);
      DistinctKeysTail(s, key);
      FilterKeepsDistinctKeys(s[1..], p, key);
      if p(s[0]) {
        assert Filter(s, p) == [s[0]] + rest;
        DistinctKeysCons(s[0], rest, key);
      } else {
        assert Filter(s, p) == rest;
      }
    }
  }

  /** `le` orders every pair of values and is transitive: a database sort key. */
  ghost predicate TotalPreorder<T(!new)>(le: (T, T) -> bool) {
    && (forall a, b :: le(a, b) || le(b, a))
    && (forall a, b, c :: le(a, b) && le(b, c) ==> le(a, c))
  }

  /** Every row comes no later than the rows after it. */
  predicate SortedBy<T>(s: seq<T>, le: (T, T) -> bool) {
    forall i, j :: 0 <= i < j < |s| ==> le(s[i], s[j])
  }

  /** In a sorted sequence the first row comes no later than any other. */
  lemma SortedHeadFirst<T>(s: seq<T>, le: (T, T) -> bool)
    requires s != [] && SortedBy(s, le)
    ensures SortedBy(s[1..], le)
    ensures forall y :: y in s[1..] ==> le(s[0], y)
  {
    forall i, j | 0 <= i < j < |s| - 1 ensures le(s[1..][i], s[1..][j]) {
      assert s[1..][i] == s[i + 1] && s[1..][j] == s[j + 1];
    }
    forall y | y in s[1..] ensures le(s[0], y) {
      var m :| 0 <= m < |s| - 1 && s[1..][m] == y;
      assert s[m + 1] == y;
    }
  }

  /** A row that comes no later than every row of a sorted sequence may go in front of it. */
  lemma SortedCons<T>(h: T, t: seq<T>, le: (T, T) -> bool)
    requires SortedBy(t, le) && forall y :: y in t ==> le(h, y)
    ensures SortedBy([h] + t, le)
  {
    var r := [h] + t;
    forall i, j | 0 <= i < j < |r| ensures le(r[i], r[j]) {
      assert r[j] == t[j - 1];
      if i > 0 {
        assert r[i] == t[i - 1];
      }
    }
  }

  /** Places `x` before the first row it may precede. */
  function Insert<T(!new)>(x: T, s: seq<T>, le: (T, T) -> bool): (r: seq<T>)
    requires TotalPreorder(le) && SortedBy(s, le)
    ensures SortedBy(r, le)
    ensures multiset(r) == multiset(s) + multiset{x}
    ensures forall y :: y in r <==> y == x || y in s
  {
    if s == [] then
      [x]
    else
      SortedHeadFirst(s, le);
      assert s == [s[0]] + s[1..];
      if le(x, s[0]) then
        SortedCons(x, s, le);
        [x] + s
      else
        var tail := Insert(x, s[1..], le);
        SortedCons(s[0], tail, le);
        [s[0]] + tail
  }

  /** The rows of `s` ordered by `le`; the contract fixes no order among rows that tie. */
  function Sort<T(!new)>(s: seq<T>, le: (T, T) -> bool): (r: seq<T>)
    requires TotalPreorder(le)
    ensures SortedBy(r, le)
    ensures multiset(r) == multiset(s)
    ensures forall x :: x in r <==> x in s
    ensures |r| == |s|
  {
    if s == [] then []
    else
      assert s == [s[0]] + s[1..];
      Insert(s[0], Sort(s[1..], le), le)
  }

  /** The first `k` rows of a sorted sequence are sorted and come no later than any row after them. */
  lemma SortedPrefixComesFirst<T>(s: seq<T>, le: (T, T) -> bool, k: nat)
    requires SortedBy(s, le) && k <= |s|
    ensures SortedBy(s[..k], le)
    ensures multiset(s[..k]) <= multiset(s)
    ensures forall x, y :: x in s[..k] && y in multiset(s) - multiset(s[..k]) ==> le(x, y)
  {
    assert s == s[..k] + s[k..];
    assert multiset(s) == multiset(s[..k]) + multiset(s[k..]);
    forall i, j | 0 <= i < j < k ensures le(s[..k][i], s[..k][j]) {
      assert s[..k][i] == s[i] && s[..k][j] == s[j];
    }
    forall x, y | x in s[..k] && y in multiset(s) - multiset(s[..k]) ensures le(x, y) {
      assert y in multiset(s[k..]);
      var i :| 0 <= i < k && s[..k][i] == x;
      var j :| 0 <= j < |s| - k && s[k..][j] == y;
      assert s[i] == x && s[k + j] == y;
    }
  }

  /** The first `k` rows of `s` in the order `le` (all of them when there are fewer). */
  function FirstBy<T(!new)>(s: seq<T>, le: (T, T) -> bool, k: nat): (r: seq<T>)
    requires TotalPreorder(le)
    ensures |r| == if k < |s| then k else |s|
    ensures SortedBy(r, le)
    ensures multiset(r) <= multiset(s)
    ensures forall x, y :: x in r && y in multiset(s) - multiset(r) ==> le(x, y)
  {
    var sorted := Sort(s, le);
    var n := if k < |s| then k else |s|;
    SortedPrefixComesFirst(sorted, le, n);
    sorted[..n]
  }
}

=== FILE: views.dfy ===
/** The catalogue views with the HTTP layer stripped off: who may change a
    game, creating, updating and deleting games, the top-N and list orderings,
    and the export projection. */
module Views {
  import opened Wrappers
  import opened Json
  import opened Sequences
  import opened Models
  import opened Forms

  /** The acting user as the authentication framework supplies it. */
  datatype User = User(id: UserId, isAuthenticated: bool, isStaff: bool, isSuperuser: bool)

  /** How a view refuses a request. */
  datatype ViewError =
    | PermissionDenied        // 403
    | NotFound                // 404 from the object lookup
    | LoginRequired           // redirect to the login page
    | Invalid(error: ValidationError)   // the form is shown again with its errors

  predicate LoggedIn(user: Option<User>) {
    user.Some? && user.value.isAuthenticated
  }

  /** The owner-or-staff test that guards editing and deleting a game. */
  function TestFunc(user: Option<User>, game: Option<Game>): (allowed: bool)
    ensures !LoggedIn(user) || game.None? ==> !allowed
    ensures LoggedIn(user) && game.Some? ==>
      (allowed <==> game.value.owner == Some(user.value.id) || user.value.isStaff || user.value.isSuperuser)
  {
    if game.None? then false
    else if user.None? || !user.value.isAuthenticated then false
    else game.value.owner == Some(user.value.id) || user.value.isStaff || user.value.isSuperuser
  }

  /** The position of the game with primary key `id`, if there is one. */
  function FindGame(games: seq<Game>, id: GameId): (r: Option<nat>)
    ensures r.Some? ==> r.value < |games| && games[r.value].id == id
    ensures r.None? <==> !HasGame(games, id)
  {
    if games == [] then None
    else if games[|games| - 1].id == id then Some(|games| - 1)
    else
      var r := FindGame(games[..|games| - 1], id);
      assert HasGame(games, id) ==> HasGame(games[..|games| - 1], id) by {
        if HasGame(games, id) {
          var i :| 0 <= i < |games| && games[i].id == id;
          assert games[..|games| - 1][i] == games[i];
        }
      }
      r
  }

  function GameAt(games: seq<Game>, index: Option<nat>): Option<Game>
    requires index.Some? ==> index.value < |games|
  {
    if index.Some? then Some(games[index.value]) else None
  }

  /** The cover after a form with `change` is saved over a game whose cover is `current`. */
  function NewCover(current: Option<Cover>, change: CoverChange): (c: Option<Cover>)
    ensures change.KeepCover? ==> c == current
    ensures change.ClearCover? ==> c.None?
    ensures change.Upload? ==> c == Some(change.image)
  {
    match change
    case KeepCover => current
    case ClearCover => None
    case Upload(image) => Some(image)
  }

  /** Creating a game: only a logged-in user may, the form must be valid, and
      the acting user becomes the owner. */
  function CreateGame(s: Store, user: Option<User>, input: GameFormInput): (r: Result<Store, ViewError>)
    ensures !LoggedIn(user) ==> r == Err(LoginRequired)
    ensures LoggedIn(user) && CleanGameForm(input).Err? ==> r == Err(Invalid(CleanGameForm(input).error))
    ensures r.Ok? <==> LoggedIn(user) && CleanGameForm(input).Ok?
    ensures r.Ok? ==>
      var f := CleanGameForm(input).value;
      && r.value == s.(games := r.value.games, nextGameId := s.nextGameId + 1)
      && r.value.games == s.games + [Game(s.nextGameId, f.title, f.releaseYear, f.genre, f.userRating,
                                          NewCover(None, f.cover), Some(user.value.id))]
  {
    if !LoggedIn(user) then Err(LoginRequired)
    else
      match CleanGameForm(input)
      case Err(e) => Err(Invalid(e))
      case Ok(f) =>
        var g := Game(s.nextGameId, f.title, f.releaseYear, f.genre, f.userRating,
                      NewCover(None, f.cover), Some(user.value.id));
        Ok(s.(games := s.games + [g], nextGameId := s.nextGameId + 1))
  }

  /** The refusals shared by the edit and delete views, in the order they are
      checked: not logged in (the mixin's handler raises 403), no such game
      (404), and the owner-or-staff test (403). */
  function Authorize(s: Store, user: Option<User>, id: GameId): (r: Result<nat, ViewError>)
    ensures r.Ok? ==> r.value < |s.games| && s.games[r.value].id == id
    ensures r.Ok? <==> LoggedIn(user) && HasGame(s.games, id) && TestFunc(user, GameAt(s.games, FindGame(s.games, id)))
    ensures !LoggedIn(user) ==> r == Err(PermissionDenied)
    ensures LoggedIn(user) && !HasGame(s.games, id) ==> r == Err(NotFound)
    ensures LoggedIn(user) && HasGame(s.games, id) && !r.Ok? ==> r == Err(PermissionDenied)
  {
    if !LoggedIn(user) then Err(PermissionDenied)
    else
      match FindGame(s.games, id)
      case None => Err(NotFound)
      case Some(i) => if TestFunc(user, Some(s.games[i])) then Ok(i) else Err(PermissionDenied)
  }

  /** Editing a game: after the checks above, a valid form overwrites title,
      year, genre, rating and cover; the owner and the key never change. */
  function UpdateGame(s: Store, user: Option<User>, id: GameId, input: GameFormInput): (r: Result<Store, ViewError>)
    ensures Authorize(s, user, id).Err? ==> r == Err(Authorize(s, user, id).error)
    ensures Authorize(s, user, id).Ok? && CleanGameForm(input).Err? ==> r == Err(Invalid(CleanGameForm(input).error))
    ensures r.Ok? <==> Authorize(s, user, id).Ok? && CleanGameForm(input).Ok?
    ensures r.Ok? ==>
      var i := Authorize(s, user, id).value;
      var before := s.games[i];
      var f := CleanGameForm(input).value;
      && r.value == s.(games := r.value.games)
      && r.value.games == s.games[i := Game(before.id, f.title, f.releaseYear, f.genre, f.userRating,
                                               NewCover(before.cover, f.cover), before.owner)]
  {
    match Authorize(s, user, id)
    case Err(e) => Err(e)
    case Ok(i) =>
      match CleanGameForm(input)
      case Err(e) => Err(Invalid(e))
      case Ok(f) =>
        var g := s.games[i];
        Ok(s.(games := s.games[i := g.(title := f.title, releaseYear := f.releaseYear, genre := f.genre,
                                       userRating := f.userRating, cover := NewCover(g.cover, f.cover))]))
  }

  /** Deleting a game through its delete view: after the same checks, the
      game and its comments are deleted. */
  function DeleteGameView(s: Store, user: Option<User>, id: GameId): (r: Result<Store, ViewError>)
    ensures Authorize(s, user, id).Err? ==> r == Err(Authorize(s, user, id).error)
    ensures Authorize(s, user, id).Ok? ==> r == Ok(DeleteGame(s, id))
  {
    match Authorize(s, user, id)
    case Err(e) => Err(e)
    case Ok(_) => Ok(DeleteGame(s, id))
  }

  /** A logged-in user who neither owns the game nor is staff or superuser is
      refused both edit and delete with 403, whatever the form says. */
  lemma StrangerIsRefused(s: Store, user: User, id: GameId, input: GameFormInput)
    requires user.isAuthenticated && !user.isStaff && !user.isSuperuser
    requires FindGame(s.games, id).Some? && s.games[FindGame(s.games, id).value].owner != Some(user.id)
    ensures UpdateGame(s, Some(user), id, input) == Err(PermissionDenied)
    ensures DeleteGameView(s, Some(user), id) == Err(PermissionDenied)
  {
  }

  /** The owner, staff and superusers pass the test for every game they can see. */
  lemma OwnerOrStaffIsAllowed(s: Store, user: User, id: GameId)
    requires user.isAuthenticated && HasGame(s.games, id)
    requires s.games[FindGame(s.games, id).value].owner == Some(user.id) || user.isStaff || user.isSuperuser
    ensures Authorize(s, Some(user), id).Ok?
    ensures DeleteGameView(s, Some(user), id) == Ok(DeleteGame(s, id))
  {
  }

  /** Creating a game keeps the store consistent when the acting user is a
      known account, and the new game's rating is in range. */
  lemma CreateGameKeepsStoreValid(s: Store, user: Option<User>, input: GameFormInput)
    requires StoreValid(s) && RatingsInRange(s.games)
    requires LoggedIn(user) ==> user.value.id in s.users
    ensures CreateGame(s, user, input).Ok? ==>
      StoreValid(CreateGame(s, user, input).value) && RatingsInRange(CreateGame(s, user, input).value.games)
  {
    var r := CreateGame(s, user, input);
    if r.Ok? {
      var t := r.value;
      assert DistinctKeys(t.games, GameKey) by {
        forall i, j | 0 <= i < |t.games| && 0 <= j < |t.games| && i != j
          ensures GameKey(t.games[i]) != GameKey(t.games[j])
        {
          if i < |s.games| && j < |s.games| {
            assert GameKey(s.games[i]) != GameKey(s.games[j]);
          }
        }
      }
      forall i | 0 <= i < |t.comments| ensures HasGame(t.games, t.comments[i].game) {
        assert t.comments[i] == s.comments[i] && HasGame(s.games, s.comments[i].game);
        var j :| 0 <= j < |s.games| && s.games[j].id == t.comments[i].game;
        assert t.games[j] == s.games[j];
      }
    }
  }

  /** Editing a game keeps the store consistent and the ratings in range. */
  lemma UpdateGameKeepsStoreValid(s: Store, user: Option<User>, id: GameId, input: GameFormInput)
    requires StoreValid(s) && RatingsInRange(s.games)
    ensures UpdateGame(s, user, id, input).Ok? ==>
      StoreValid(UpdateGame(s, user, id, input).value) && RatingsInRange(UpdateGame(s, user, id, input).value.games)
  {
    var r := UpdateGame(s, user, id, input);
    if r.Ok? {
      var t := r.value;
      assert forall j :: 0 <= j < |s.games| ==> t.games[j].id == s.games[j].id && t.games[j].owner == s.games[j].owner;
      assert DistinctKeys(t.games, GameKey) by {
        forall i, j | 0 <= i < |t.games| && 0 <= j < |t.games| && i != j
          ensures GameKey(t.games[i]) != GameKey(t.games[j])
        {
          assert GameKey(s.games[i]) != GameKey(s.games[j]);
        }
      }
      forall i | 0 <= i < |t.comments| ensures HasGame(t.games, t.comments[i].game) {
        assert t.comments[i] == s.comments[i] && HasGame(s.games, s.comments[i].game);
        var j :| 0 <= j < |s.games| && s.games[j].id == t.comments[i].game;
        assert t.games[j].id == s.games[j].id;
      }
    }
  }

  // ---------------------------------------------------------------------
  // Top N
  // ---------------------------------------------------------------------

  /** The top-N ordering: higher rating first, then the more recent year. */
  function TopOrder(a: Game, b: Game): (r: bool)
    ensures a.userRating != b.userRating ==> (r <==> a.userRating > b.userRating)
    ensures a.userRating == b.userRating ==> (r <==> a.releaseYear >= b.releaseYear)
  {
    a.userRating > b.userRating || (a.userRating == b.userRating && a.releaseYear >= b.releaseYear)
  }

  lemma TopOrderIsTotalPreorder()
    ensures TotalPreorder(TopOrder)
  {
  }

  /** How many games the top view shows for the `n` query parameter: 10 when
      it is missing or not an integer, otherwise clamped into 1-100. */
  function TopCount(n: Option<string>): (k: int)
    ensures 1 <= k <= 100
    ensures n.None? || ParseInt(n.value).None? ==> k == 10
    ensures n.Some? && ParseInt(n.value).Some? ==>
      var v := ParseInt(n.value).value;
      && (1 <= v <= 100 ==> k == v)
      && (v < 1 ==> k == 1)
      && (v > 100 ==> k == 100)
  {
    var requested := match n
      case None => 10
      case Some(text) => (match ParseInt(text) case Some(v) => v case None => 10);
    Max(1, Min(requested, 100))
  }

  function Min(a: int, b: int): int { if a < b then a else b }

  function Max(a: int, b: int): int { if a < b then b else a }

  /** The top view: the first `TopCount(n)` games by rating, then year. Every
      game shown ranks at least as high as every game left out. */
  function TopGames(games: seq<Game>, n: Option<string>): (r: seq<Game>)
    ensures |r| == Min(TopCount(n), |games|)
    ensures forall i, j :: 0 <= i < j < |r| ==> TopOrder(r[i], r[j])
    ensures multiset(r) <= multiset(games)
    ensures forall x, y :: x in r && y in multiset(games) - multiset(r) ==> TopOrder(x, y)
  {
    TopOrderIsTotalPreorder();
    FirstBy(games, TopOrder, TopCount(n))
  }

  // ---------------------------------------------------------------------
  // Game list
  // ---------------------------------------------------------------------

  /** Lexicographic order on titles, character by character. */
  predicate StrLe(a: string, b: string) {
    a == [] || (b != [] && (a[0] < b[0] || (a[0] == b[0] && StrLe(a[1..], b[1..]))))
  }

  lemma {:induction false} StrLeTotal(a: string, b: string)
    ensures StrLe(a, b) || StrLe(b, a)
  {
    if a != [] && b != [] && a[0] == b[0] {
      StrLeTotal(a[1..], b[1..]);
    }
  }

  lemma {:induction false} StrLeTransitive(a: string, b: string, c: string)
    requires StrLe(a, b) && StrLe(b, c)
    ensures StrLe(a, c)
  {
    if a != [] && b != [] && c != [] && a[0] == b[0] && b[0] == c[0] {
      StrLeTransitive(a[1..], b[1..], c[1..]);
    }
  }

  /** The list ordering: rating descending, then year descending, then title ascending. */
  function ListOrder(a: Game, b: Game): (r: bool)
    ensures a.userRating != b.userRating ==> (r <==> a.userRating > b.userRating)
    ensures a.userRating == b.userRating && a.releaseYear != b.releaseYear ==> (r <==> a.releaseYear > b.releaseYear)
    ensures a.userRating == b.userRating && a.releaseYear == b.releaseYear ==> (r <==> StrLe(a.title, b.title))
  {
    || a.userRating > b.userRating
    || (a.userRating == b.userRating &&
        (|| a.releaseYear > b.releaseYear
         || (a.releaseYear == b.releaseYear && StrLe(a.title, b.title))))
  }

  lemma ListOrderIsTotalPreorder()
    ensures TotalPreorder(ListOrder)
  {
    forall a, b ensures ListOrder(a, b) || ListOrder(b, a) {
      StrLeTotal(a.title, b.title);
    }
    forall a, b, c | ListOrder(a, b) && ListOrder(b, c) ensures ListOrder(a, c) {
      if a.userRating == b.userRating == c.userRating && a.releaseYear == b.releaseYear == c.releaseYear {
        StrLeTransitive(a.title, b.title, c.title);
      }
    }
  }

  /** ASCII case folding, as the database's case-insensitive match does. */
  function Lower(c: char): char {
    if 'A' <= c <= 'Z' then (c as int - 'A' as int + 'a' as int) as char else c
  }

  /** A string with every character folded by `Lower`. */
  function LowerAll(s: string): (t: string)
    ensures |t| == |s| && forall i :: 0 <= i < |s| ==> t[i] == Lower(s[i])
  {
    seq(|s|, i requires 0 <= i < |s| => Lower(s[i]))
  }

  /** `iexact`: the two strings are equal once both are case-folded. */
  predicate EqualsIgnoreCase(a: string, b: string): (r: bool)
    ensures r <==> LowerAll(a) == LowerAll(b)
  {
    |a| == |b| && forall i :: 0 <= i < |a| ==> Lower(a[i]) == Lower(b[i])
  }

  function GenreIs(genre: string): Game -> bool {
    (g: Game) => EqualsIgnoreCase(g.genre, genre)
  }

  /** The list view: with a non-empty `genre` parameter only the games whose
      genre matches it case-insensitively, in the list ordering. */
  function ListGames(games: seq<Game>, genre: Option<string>): (r: seq<Game>)
    ensures forall i, j :: 0 <= i < j < |r| ==> ListOrder(r[i], r[j])
    ensures forall g :: g in r <==>
      g in games && (genre.None? || genre.value == "" || EqualsIgnoreCase(g.genre, genre.value))
    ensures forall g :: g in r ==> multiset(r)[g] == multiset(games)[g]
  {
    ListOrderIsTotalPreorder();
    var selected := if genre.Some? && genre.value != "" then Filter(games, GenreIs(genre.value)) else games;
    Sort(selected, ListOrder)
  }

  // ---------------------------------------------------------------------
  // Export
  // ---------------------------------------------------------------------

  /** The exported object for one game: exactly five keys. */
  function ExportRecord(g: Game): (rec: map<string, JValue>)
    ensures rec.Keys == {"title", "release_year", "genre", "user_rating", "owner_id"}
    ensures rec["title"] == JStr(g.title) && rec["genre"] == JStr(g.genre)
    ensures rec["release_year"] == JInt(g.releaseYear) && rec["user_rating"] == JInt(g.userRating)
    ensures rec["owner_id"] == if g.owner.Some? then JInt(g.owner.value) else JNull
  {
    map["title" := JStr(g.title),
        "release_year" := JInt(g.releaseYear),
        "genre" := JStr(g.genre),
        "user_rating" := JInt(g.userRating),
        "owner_id" := if g.owner.Some? then JInt(g.owner.value) else JNull]
  }

  /** The export: one record per game, in table order. */
  function ExportGames(games: seq<Game>): (r: seq<map<string, JValue>>)
    ensures |r| == |games|
    ensures forall i :: 0 <= i < |r| ==> r[i] == ExportRecord(games[i])
  {
    seq(|games|, i requires 0 <= i < |games| => ExportRecord(games[i]))
  }
}

=== FILE: wrappers.dfy ===
/** Optional values and pass/fail outcomes, used for Python's `None` and for
    the exceptions the web layer turns into error responses. */
module Wrappers {

  datatype Option<+T> = None | Some(value: T)

  datatype Result<+T, +E> = Ok(value: T) | Err(error: E)

  /** The result of a check that returns nothing on success (a Django validator). */
  datatype Outcome<+E> = Pass | Fail(error: E)
}
